=== FILE: README.md ===
# torch-cli fleet registry and command router, in Dafny

torch-cli manages a local regtest fleet: one `bitcoin` backend node and any
number of LND peers, each a service of a docker-compose document. This project
models the pure core of `torch-cli.py` under its shell-outs:

- **Registry** (`registry.dfy`, `commands.dfy`): the compose document's
  `services` mapping from node name to service definition, kept as a
  sequence of `Entry(name, service)` in document order. Every command is one
  process that loads the document and works on the mapping in memory. Only
  `create` and `remove` dump it back, and only `create` reads and writes
  `config.json`. PyYAML's `dump` writes mapping keys in sorted order, so what the
  next process loads is the mapping sorted by key (`Registry.SortByName`,
  with Python's string order `Text.Less`). `Commands.Persist` is that dump
  and reload. The commands `create`, `remove`, `config` and `listnodes` are
  pure functions over a `Fleet`, which holds the services and the
  allocator's last-issued ports (the `ports` of `config.json`). A failed
  command returns `Err` and writes nothing, so the stored state is the one
  it was given (`Persisted`).
- **Port allocator** (`definition.dfy`): a `PortTriple` of listen, gRPC and
  REST ports, each advanced by one per successful `create`.
- **Definition builder** (`definition.dfy`): `Build` writes the LND argument
  list, the three `"p:p"` port mappings, the data volume, `depends_on` and the
  restart policy. Its shape is stated by reading it back: `FlagValue` reads the
  first argument that starts with a flag, and `Split` reads a port mapping
  the way the router does. Some members are plain definitions that the
  contracts above are stated in terms of, and they have no row of their own:
  `Text.Join`, `Router.PeerShell`, `Definition.PortMapping`,
  `Definition.PeerArgs`, `Definition.NodeArgs`, `Definition.ChainArgs`, `Commands.Persisted` and
  `Commands.CreateAll`.
- **Command router** (`router.dfy`): `exec_cli`. `DialectOf` chooses
  `bitcoin-cli` for the backend and `lncli` for every other node, with the
  control port taken from the text before the first `':'` of the node's
  second port mapping. `Dispatch` builds the `docker exec -i -t …` shell
  command, recorded as an `Event(mode, shell)`.
- **Topology operations** (`topology.dfy`): `connect`, `openchannel` and
  `mining` as fixed sequences of router calls. Each returns a `Run`, the
  trace of shell commands issued and the error that ended it, if any. The
  JSON that a captured `getinfo` yields is a `Responder` parameter, a
  function from the shell command to the parsed `Info(uris,
  identityPubkey)`, or `None` when parsing fails. Each key of `Info` is an
  `Option`, since the answer may lack it.
- **Helpers** (`text.dfy`): string split and join with a separator,
  decimal rendering of integers (`NatToString`), and its inverse
  (`ParseNat`).
- **End-to-end walk-through** (`scenario.dfy`): create `alice` and `bob`,
  connect them, and open a channel between them.

The central round trip is this. `Build` writes the control port `p` as
`"p:p"`, and the router splits that string at `':'` to recover `p`. The
lemma `Router.PeerPortRoundTrip` proves that `lncli` is pointed at
`127.0.0.1:p`, the port that LND's `--rpclisten` binds.

Behaviour of the code worth noting:

- The router reads the control port from the port-mapping text, not from a
  stored number.
- `nblock` in `mining` is a string, because the command-line layer passes it
  unconverted.
- An interactive step never fails once it has been routed, because the exit
  status of `system()` is ignored. So `openchannel` requests the three
  confirmation blocks even when the channel command itself fails.
- `create bitcoin` succeeds on a registry that lacks the backend. The router
  then drives that node with `bitcoin-cli`.
- Ports are not unique across the fleet. Only per-component growth is
  claimed.
- After any `create` or `remove`, `listnodes` prints the keys in sorted
  order, not in creation order, because those two commands dump the
  document and the dump sorts them. Before either has run, `listnodes`
  prints the keys in the hand-written document's order. Within one process,
  a `create` appends its key after the others.
- `FlagValue` reads the first argument that starts with a flag. LND's parser
  treats a repeated flag differently, but a built definition gives each of
  the flags it reads exactly once (`Definition.BuildFlagsOnce`), so the two
  readings agree on it.
- A `getinfo` answer without the key a command reads makes the code raise a
  KeyError. The model ends the run with `MissingKey` instead. `connect`
  reads only `uris`, and `openchannel` reads only `identity_pubkey`.

## Model

| member | source | states |
|---|---|---|
| Commands.Create | torch-cli.py:27-69 | Fails with AlreadyExists exactly when the name is taken, and then the stored services and ports are unchanged. Otherwise each stored port is the previous one + 1. Within the process, the new name is appended after all existing names, and every earlier entry is kept in place. The new entry is the built definition on the new ports. No other key's lookup changes, and unique keys stay unique. |
| Commands.Persist | torch-cli.py:14-15 | What the next process loads after a dump: the same entries (as a multiset), in sorted key order, with the allocator's ports unchanged. |
| Commands.PersistKeeps | torch-cli.py:74-75 | Dumping and reloading keeps the number of entries and the set of keys. With unique keys, it keeps them unique, and every key finds the same definition as before. |
| Commands.PersistIdempotent | torch-cli.py:99-100 | A fleet that is already in key order is dumped unchanged, so dumping twice is the same as dumping once. |
| Commands.Remove | torch-cli.py:84-100 | Fails with NotFound when the name is absent. Otherwise it fails with Protected when the name is `bitcoin`. In every other case it succeeds. On success, putting the removed entry back at its old position gives back the original services, the ports are unchanged, and exactly that key is gone. |
| Commands.Config | torch-cli.py:176-181 | Fails with NotFound exactly when the name is absent. Otherwise it returns the definition stored under that name. |
| Commands.ListNodes | torch-cli.py:185-188 | One name per entry, in the mapping's order. A name is listed exactly when `config` on it succeeds. |
| Commands.ListNodesSorted | torch-cli.py:185-188 | After a dump of unique keys, `listnodes` lists the keys in strictly increasing Python string order. |
| Commands.CreateStored | torch-cli.py:29-75 | After one successful `create`, the next process loads one more entry. Its keys are the old keys plus the new name, and unique keys stay unique. |
| Commands.CreateAllKeys | torch-cli.py:29-75 | After a run of successful creates, each in its own process, the stored keys are exactly the old keys together with the created names. |
| Commands.CreateAllCount | torch-cli.py:35 | A run of n successful creates stores exactly n more entries. |
| Commands.CreateAllFresh | torch-cli.py:29-30 | In a run of successful creates, every name was absent before the run and no name occurs twice. |
| Commands.CreateAllSorted | torch-cli.py:74-75 | After a non-empty run of successful creates, the stored keys are in sorted order, and they stay unique if they were unique before. |
| Commands.CreateAllAdvances | torch-cli.py:32-33 | A run of n successful creates advances every port component by exactly n. |
| Commands.CreateTwiceIncreases | torch-cli.py:68-69 | The peer created second, in the next process, gets ports that are strictly larger, component by component, than the first one's, and the two names differ. |
| Commands.CreateThenRemove | torch-cli.py:95 | Within one process, removing a peer that was just created gives back the services as they were. The allocator keeps the advanced ports. |
| Commands.CreateThenRemoveStored | torch-cli.py:95-100 | `remove name` in the process after `create name` stores exactly the services a dump before the create would have stored, on unique keys. The allocator keeps the advanced ports. |
| Commands.RemoveThenConfig | torch-cli.py:84-100 | After a successful `remove` on a registry with unique keys, `config` on the removed name in the next process fails with NotFound. |
| Commands.BackendStays | torch-cli.py:89-90 | `remove bitcoin` fails with Protected. Any other successful removal keeps the backend. Creating `bitcoin` again fails. |
| Definition.Advance | torch-cli.py:33 | Every component of the new triple is exactly one above the old one. |
| Definition.Build | torch-cli.py:58-62 | A built definition has exactly three port mappings, and the text before the first `':'` of each is the rendered listen, RPC and REST port. |
| Definition.PortMappingRoundTrip | torch-cli.py:58-62 | A `"p:p"` mapping splits into exactly `[p, p]`, and its first field parses back to the number p. |
| Definition.BuildFlags | torch-cli.py:38-45 | Read the way LND reads its flags, a built definition has alias = name. It binds the listen, RPC and REST ports p0, p1 and p2, and it advertises `torch.<name>:p0`. |
| Definition.BuildFlagsOnce | torch-cli.py:38-56 | In a built argument list, exactly one argument starts with each of `--alias=`, `--listen=`, `--rpclisten=`, `--restlisten=` and `--externalip=`. |
| Definition.BuildChainArgs | torch-cli.py:38-56 | A built argument list has exactly 14 arguments. It sets `--lnddir=/root/.lnd` and `--bitcoin.node=bitcoind`, and it holds `--bitcoin.active` and `--bitcoin.regtest`. It points LND at the backend's RPC on `torch.bitcoin` with user `root` and password `root`, and at its ZMQ block and transaction feeds on `tcp://torch.bitcoin:28332` and `tcp://torch.bitcoin:28333`. |
| Definition.BuildShape | torch-cli.py:35-66 | A built definition has container `torch.<name>` and the LND image. It has three 1:1 port mappings on p0, p1 and p2, the volume `<root>/data/<name>:/root/.lnd`, `depends_on == ["bitcoin"]` and restart `always`. |
| Registry.Lookup | torch-cli.py:140 | A lookup finds something exactly when the key is present. What it finds is the definition stored under that key. |
| Registry.Delete | torch-cli.py:95 | Deleting a present key drops exactly one entry. Re-inserting that entry at its old position restores the mapping. Deleting an absent key changes nothing. |
| Registry.DeleteExactlyOne | torch-cli.py:95 | With unique keys, the keys after deletion are exactly the old keys minus the deleted one. |
| Registry.DeleteUnique | torch-cli.py:95 | Deletion keeps the keys unique. |
| Registry.Insert | torch-cli.py:35 | Assigning a new key appends it to the key order and keeps the keys unique. The new key maps to the new definition, and every other key's lookup is unchanged. |
| Registry.Place | torch-cli.py:74-75 | Placing one entry into a key-sorted sequence keeps it sorted, and the result holds exactly the old entries plus the new one. |
| Registry.SortByName | torch-cli.py:74-75 | The dump's key order: the result is sorted by key and is a permutation of the input. |
| Registry.SortSorted | torch-cli.py:99-100 | A sequence that is already sorted is dumped unchanged. |
| Registry.SortKeeps | torch-cli.py:99-100 | Sorting keeps the length and the set of keys. With unique keys, it keeps them unique and keeps every lookup. |
| Registry.SortedUniqueEqual | torch-cli.py:74-75 | Two sorted sequences that hold the same entries, with unique keys, are equal: the dump order is the only sorted arrangement. |
| Registry.DeleteSortedEntry | torch-cli.py:95-100 | Deleting a key from a sorted sequence with unique keys gives the sorted arrangement of the remaining entries. |
| Router.RpcPort | torch-cli.py:140 | Fails exactly when the port list has fewer than two mappings. Otherwise it returns the longest colon-free prefix of the second mapping: all of it, or the part just before its first `':'`. |
| Router.DialectOf | torch-cli.py:134-141 | Fails with NodeNotFound for an unknown name. It picks `bitcoin-cli` for `bitcoin`, and for every other node `lncli` on exactly the port `RpcPort` reads from that node's definition. Routing succeeds exactly when the node exists and is either the backend or a node with a second port mapping. |
| Router.CliPrefix | torch-cli.py:137-141 | The text before the raw command names the container: `torch.bitcoin ` for the backend's dialect, and `torch.<name> ` for a peer's. A peer's text is longer than the backend's, and both end in a space. |
| Router.Dispatch | torch-cli.py:132-146 | Fails with NodeNotFound for an unknown name, and otherwise fails only where the dialect cannot be chosen. On success the event keeps the requested mode, and the shell command starts with `docker exec -i -t ` and ends with the raw command, verbatim. |
| Router.DispatchBackend | torch-cli.py:137-138 | For `bitcoin`, the shell command is `docker exec -i -t torch.bitcoin bitcoin-cli --regtest ` followed by the raw command. |
| Router.DispatchPeer | torch-cli.py:139-144 | For any other node with at least two port mappings, the shell command is exactly `docker exec -i -t torch.<name> lncli --network regtest --rpcserver=127.0.0.1:<port> --lnddir=/root/.lnd --tlscertpath=/root/.lnd/tls.cert ` followed by the raw command, where port is the text before the first `':'` of the second mapping. |
| Router.PeerShellText | torch-cli.py:141-144 | The `docker exec` prefix, the `lncli` dialect's text and the raw command together give the full `lncli` shell command. |
| Router.BuiltRpcPort | torch-cli.py:43-60 | The control port read back from a built definition is the rendered p1. It parses to p1, and it is the value of `--rpclisten=0.0.0.0:`. |
| Router.PeerPortRoundTrip | torch-cli.py:139-144 | For a peer whose stored definition was built on ports p, the shell command is the `lncli` invocation for `torch.<name>` with `--rpcserver=127.0.0.1:<p1>`, followed by the raw command. |
| Router.DialectsDiffer | torch-cli.py:137-141 | The same raw command routed to `bitcoin` and to a peer gives two different shell commands. |
| Router.RpcExec | torch-cli.py:149-154 | `exec` succeeds exactly when the node can be routed to. It runs interactively, and its shell command ends with the words joined by single spaces. |
| Router.RpcExecText | torch-cli.py:137-154 | On success, `exec` on `bitcoin` runs `docker exec -i -t torch.bitcoin bitcoin-cli --regtest ` followed by the joined words. On any other node it runs the full `lncli` command (`PeerShell`) for that node's container, on the port before the first `':'` of its second mapping, followed by the joined words. |
| Router.DataDirAgrees | torch-cli.py:38-63 | A built definition has one data directory throughout. Its `--lnddir` value is the container side of its only volume. The `lncli` text that the router uses (torch-cli.py:141) passes the same directory as `--lnddir` and looks for `tls.cert` inside it. |
| Router.VolumeDir | torch-cli.py:63 | A built definition has one volume, and it is mounted at `/root/.lnd` in the container. |
| Router.LncliDir | torch-cli.py:141 | The router's `lncli` text passes `--lnddir=/root/.lnd` and ends with `--tlscertpath=/root/.lnd/tls.cert `. |
| Router.RpcExecWords | torch-cli.py:154 | Words without spaces split back out of the joined raw command unchanged. |
| Topology.Connect | torch-cli.py:191-198 | `connect` issues at most two commands and succeeds exactly when it issues both. A target that cannot be routed to ends the run with the routing error and nothing issued (NodeNotFound for an unknown target). Otherwise the first command is the target's captured `getinfo`. An unparsable answer ends the run with MalformedResponse, an answer without `uris` ends it with MissingKey, and an empty `uris` ends it with NoUri. Otherwise a routing error for `connect <uris[0]>` on the source ends the run after the probe, and a routed one is issued interactively as the second command. |
| Topology.OpenChannel | torch-cli.py:201-210 | `openchannel` issues at most three commands and succeeds exactly when it issues all three. A target that cannot be routed to ends the run with the routing error and nothing issued. Otherwise the first command is the target's captured `getinfo`. An unparsable answer ends the run with MalformedResponse, and an answer without `identity_pubkey` ends it with MissingKey. Otherwise a routing error for `openchannel <identity_pubkey> <amount>` on the source ends the run after the probe, and a routed one is issued interactively as the second command. |
| Topology.Fund | torch-cli.py:209-210 | After the probe, the channel command on the source is issued, or its routing error ends the run. The run succeeds exactly when a third command is issued, and that command is always the interactive `bitcoin-cli --regtest -generate 3` on `bitcoin`. A run that stops after the channel command ended with NodeNotFound because the backend is absent. |
| Topology.OpenChannelConfirms | torch-cli.py:209-210 | Once the channel command has been issued, `-generate 3` on `bitcoin` is always issued whenever the backend exists. Without the backend, the run ends with NodeNotFound. |
| Topology.ConnectSucceeds | torch-cli.py:196-198 | When every call succeeds, `connect` issues exactly the probe and then the connect command. |
| Topology.OpenChannelSucceeds | torch-cli.py:207-210 | When every call succeeds, `openchannel` issues exactly the probe, the channel command and the confirmation. |
| Topology.Mining | torch-cli.py:157-161 | `mining` issues exactly one interactive `bitcoin-cli --regtest -generate <nblock>`. It fails with NodeNotFound when the backend is absent. |
| Scenario.CreatedPeerRoute | torch-cli.py:139-144 | In the process after `create`, the new peer is routed through `lncli` with `--rpcserver=127.0.0.1:<p>`, where p is the stored control port + 1. |
| Scenario.CreateAlice | torch-cli.py:27-75 | `create alice` on a fresh fleet stores `alice` ahead of `bitcoin`, on the seed ports + 1. |
| Scenario.CreateBob | torch-cli.py:27-75 | `create bob` on what `create alice` stored keeps the order alice, bitcoin, bob, on the seed ports + 2. |
| Scenario.TwoPeers | torch-cli.py:185-188 | Creating `alice` and then `bob` on a fresh fleet succeeds. The stored result is alice on the seed ports + 1, then the backend, then bob on the seed ports + 2, and `listnodes` gives `[alice, bitcoin, bob]`. |
| Scenario.AliceAndBobLookup | torch-cli.py:176-181 | In that two-peer fleet, the backend is present, `alice` finds the definition built on the seed ports + 1, and `bob` finds the one built on the seed ports + 2. |
| Scenario.ConnectPeers | torch-cli.py:194-198 | Between two created peers, `connect` is a captured `getinfo` on the target's control port, then an interactive `connect <uri>` on the source's control port. |
| Scenario.OpenChannelPeers | torch-cli.py:205-210 | Between two created peers, `openchannel` is a captured `getinfo`, then `openchannel <pubkey> <amount>` on the source's control port, then `-generate 3` on the backend. |
| Scenario.ConnectAliceBob | torch-cli.py:191-198 | `connect alice bob` after the two creates issues the `getinfo` on bob's port seed+2, then `connect <uri>` on alice's port seed+1. |
| Scenario.OpenChannelAliceBob | torch-cli.py:201-210 | `openchannel alice bob amount` after the two creates issues the exact three shell commands. |
| Text.Split | torch-cli.py:140 | The pieces are never empty as a list and never contain the separator. Joining them with the separator gives back the input. |
| Text.SplitJoin | torch-cli.py:154 | Splitting undoes joining when no word contains the separator. |
| Text.FirstField | torch-cli.py:140 | The first field is a separator-free prefix of the input. It is the whole input, or it stops just before the first separator. |
| Text.SplitFirstStops | torch-cli.py:140 | The first piece of a split runs to the first separator, or to the end of the input. |
| Text.NatToString | torch-cli.py:41-45 | Decimal rendering is non-empty and all digits, and it has no leading zero: a rendering that starts with `0` is exactly `"0"`, the rendering of zero. |
| Text.ParseNatToString | torch-cli.py:59-61 | Parsing a rendered number gives it back. |
| Text.NatToStringInjective | torch-cli.py:59-61 | Distinct ports render to distinct strings. |
| Text.NatToStringHasNoSeparator | torch-cli.py:59-61 | A rendered number contains neither `':'` nor `' '`. |
| Text.IntToString | torch-cli.py:209 | The rendered amount is non-empty and space-free, and it starts with `-` exactly when the amount is negative. The digits after any sign parse back to the amount's absolute value, with no leading zero: a non-negative amount that renders starting with `0` renders as exactly `"0"`, and a negative one has a non-zero first digit after the `-`. |
| Text.LessTotal | torch-cli.py:74-75 | Python's string order relates any two distinct strings one way or the other. |
| Text.LessTransitive | torch-cli.py:74-75 | Python's string order is transitive. |
| Text.LessAsymmetric | torch-cli.py:74-75 | Python's string order is asymmetric and irreflexive. |

## Left out

- File persistence: the reading and writing of `docker-compose.yaml` and `config.json` files. The state is an explicit `Fleet` argument and result. The effect of a dump followed by a load on the services is modelled (`Commands.Persist`). The YAML text format and the order of keys inside one service definition are not.
- Shell-outs to docker and docker-compose: `down`, `up`, `restart`, `logs`, `mkdir` and `sudo rm -rf` of a node's data directory. The commands `start`, `stop`, `restart` and `logs` consist only of these, so they are not modelled.
- Running the shell command (`system`, `Popen`) and `json.loads` of its output. The `Responder` parameter stands in for the parsed answer.
- `faucet`: it converts satoshis with floating-point division and `:.8f` formatting.
- Click argument parsing, help text and the printed JSON or messages.
- A `config.json` whose `ports` list is not exactly three numbers, or holds negative numbers. The allocator state is a triple of naturals.
- A failed write between the two files in `create` (`config.json` written, `docker-compose.yaml` not) is an I/O failure and is not modelled.
- A `getinfo` answer whose `uris` is not a list of strings, or whose `identity_pubkey` is not a string. The JSON value types are not modelled.
- Topology.OpenChannel: its contract does not state on its own that the three blocks are mined. That property is stated by `Topology.OpenChannelConfirms`.

=== FILE: basics.dfy ===
/** Failure-carrying values shared by every module, and the error taxonomy of
    the fleet tool: each constructor of `Error` stands for one exception the
    command-line tool raises and aborts on. */
module Basics {

  datatype Option<+T> = None | Some(value: T)

  /** Every failure the registry, the router and the topology operations can
      report. None of them is recovered from: each one ends the command. */
  datatype Error =
    | AlreadyExists      // `create` on a name that is already a service
    | NotFound           // `remove` or `config` on a name that is not a service
    | Protected          // `remove` of the reserved backend node
    | NodeNotFound       // routing a command to a name that is not a service
    | MissingRpcPort     // a peer whose port list has no second mapping
    | MalformedResponse  // captured output that does not parse as a JSON object
    | MissingKey         // a `getinfo` answer without the key the command reads
    | NoUri              // a `getinfo` answer whose `uris` list is empty

  datatype Result<+T> = Ok(value: T) | Err(error: Error)
}

=== FILE: commands.dfy ===
/** The registry commands of torch-cli.py over the tool's stored state: the
    compose document's services and the allocator's last-issued ports. Each
    command is one invocation of the tool, which loads the document and works
    on it in memory. Only `create` and `remove` dump the document back when
    they succeed, and only `create` reads and writes the allocator's ports. */
module Commands {
  import opened Basics
  import opened Text
  import opened Definition
  import opened Registry

  /** What one invocation works on: `services` of `docker-compose.yaml` in
      document order and `ports` of `config.json`. */
  datatype Fleet = Fleet(services: Services, lastPorts: PortTriple)

  /** Dumping `f` and loading it again in the next invocation: the YAML
      dumper writes the services sorted by key, and the ports as they are.
      Nothing is lost or added, so every key finds what it found before. */
  function Persist(f: Fleet): (g: Fleet)
    ensures SortedByName(g.services)
    ensures multiset(g.services) == multiset(f.services)
    ensures g.lastPorts == f.lastPorts
  {
    Fleet(SortByName(f.services), f.lastPorts)
  }

  /** What dumping keeps: the number of entries, the keys, and with unique
      keys their uniqueness and what each key finds. */
  lemma PersistKeeps(f: Fleet)
    ensures |Persist(f).services| == |f.services|
    ensures forall n :: Contains(Persist(f).services, n) <==> Contains(f.services, n)
    ensures Unique(f.services) ==> Unique(Persist(f).services)
    ensures Unique(f.services) ==> forall n :: Lookup(Persist(f).services, n) == Lookup(f.services, n)
  {
    SortKeeps(f.services);
  }

  /** A fleet as it was loaded from a dump is dumped unchanged, so dumping
      twice is dumping once. */
  lemma PersistIdempotent(f: Fleet)
    ensures SortedByName(f.services) ==> Persist(f) == f
    ensures Persist(Persist(f)) == Persist(f)
  {
    if SortedByName(f.services) {
      SortSorted(f.services);
    }
    SortSorted(Persist(f).services);
  }

  /** The state on disk after a command: a failed command raises before it
      writes anything, a successful one dumps its result. */
  function Persisted(before: Fleet, r: Result<Fleet>): Fleet
  {
    if r.Ok? then Persist(r.value) else before
  }

  /** `create name`: refuses a taken name before touching the allocator;
      otherwise advances every port by one, appends the peer's definition
      and stores the new ports. */
  function Create(f: Fleet, root: string, name: string): (r: Result<Fleet>)
    ensures r.Err? <==> Contains(f.services, name)
    ensures r.Err? ==> r.error == AlreadyExists && Persisted(f, r) == f
    ensures r.Ok? ==>
      var p := r.value.lastPorts;
      && p.listen == f.lastPorts.listen + 1
      && p.rpc == f.lastPorts.rpc + 1
      && p.rest == f.lastPorts.rest + 1
    ensures r.Ok? ==> Names(r.value.services) == Names(f.services) + [name]
    ensures r.Ok? ==> r.value.services[..|f.services|] == f.services
    ensures r.Ok? ==> Lookup(r.value.services, name) == Some(Build(root, name, r.value.lastPorts))
    ensures r.Ok? ==> forall n :: n != name ==> Lookup(r.value.services, n) == Lookup(f.services, n)
    ensures r.Ok? && Unique(f.services) ==> Unique(r.value.services)
  {
    if Contains(f.services, name) then Err(AlreadyExists)
    else
      var ports := Advance(f.lastPorts);
      var services := Insert(f.services, name, Build(root, name, ports));
      assert services[..|f.services|] == f.services;
      Ok(Fleet(services, ports))
  }

  /** `remove name`: refuses an absent name, then the backend node; otherwise
      deletes that one entry. The allocator's ports are not given back. */
  function Remove(f: Fleet, name: string): (r: Result<Fleet>)
    ensures !Contains(f.services, name) ==> r == Err(NotFound)
    ensures Contains(f.services, name) && name == BackendName ==> r == Err(Protected)
    ensures r.Ok? <==> Contains(f.services, name) && name != BackendName
    ensures r.Err? ==> Persisted(f, r) == f
    ensures r.Ok? ==> r.value.lastPorts == f.lastPorts
    ensures r.Ok? ==> |r.value.services| == |f.services| - 1
    ensures r.Ok? ==> var k := IndexOf(f.services, name);
      f.services == r.value.services[..k] + [Entry(name, f.services[k].service)] + r.value.services[k..]
    ensures r.Ok? && Unique(f.services) ==>
      && Unique(r.value.services)
      && !Contains(r.value.services, name)
      && (forall n :: n != name ==> (Contains(r.value.services, n) <==> Contains(f.services, n)))
  {
    if !Contains(f.services, name) then Err(NotFound)
    else if name == BackendName then Err(Protected)
    else
      DeleteOnUnique(f.services, name);
      Ok(Fleet(Delete(f.services, name), f.lastPorts))
  }

  /** `config name`: the stored definition of one node. */
  function Config(f: Fleet, name: string): (r: Result<Service>)
    ensures r.Err? <==> !Contains(f.services, name)
    ensures r.Err? ==> r.error == NotFound
    ensures r.Ok? ==> Entry(name, r.value) in f.services
  {
    match Lookup(f.services, name)
    case Some(s) => Ok(s)
    case None => Err(NotFound)
  }

  /** `listnodes`: the node names in document order. */
  function ListNodes(f: Fleet): (names: seq<string>)
    ensures |names| == |f.services|
    ensures forall i :: 0 <= i < |f.services| ==> names[i] == f.services[i].name
    ensures forall n :: n in names <==> Config(f, n).Ok?
  {
    Names(f.services)
  }

  /** After a successful `create` or `remove`, the next `listnodes` prints the
      names in strictly increasing key order. */
  lemma ListNodesSorted(f: Fleet)
    requires Unique(f.services)
    ensures var names := ListNodes(Persist(f));
      forall i, j :: 0 <= i < j < |names| ==> Less(names[i], names[j])
  {
    var reg := Persist(f).services;
    PersistKeeps(f);
    forall i, j | 0 <= i < j < |reg| ensures Less(reg[i].name, reg[j].name) {
      LessTotal(reg[i].name, reg[j].name);
    }
  }

  /** Successive `create` invocations, one per name, stopping at the first
      failure; each one loads what the one before dumped. */
  function CreateAll(f: Fleet, root: string, names: seq<string>): Result<Fleet>
    decreases |names|
  {
    if |names| == 0 then Ok(f)
    else
      match Create(f, root, names[0])
      case Err(e) => Err(e)
      case Ok(g) => CreateAll(Persist(g), root, names[1..])
  }

  /** One step of a batch of creates: the rest runs on what the first
      create stored. */
  lemma CreateAllStep(f: Fleet, root: string, names: seq<string>)
    requires |names| > 0 && Create(f, root, names[0]).Ok?
    ensures CreateAll(f, root, names) == CreateAll(Persist(Create(f, root, names[0]).value), root, names[1..])
  {
  }

  /** One `create` as the next invocation sees it: one more key, the new
      one, and unique keys stay unique. */
  lemma CreateStored(f: Fleet, root: string, name: string)
    requires Create(f, root, name).Ok?
    ensures var g := Persist(Create(f, root, name).value);
      && |g.services| == |f.services| + 1
      && (forall n :: Contains(g.services, n) <==> Contains(f.services, n) || n == name)
      && (Unique(f.services) ==> Unique(g.services))
  {
    var c := Create(f, root, name).value;
    PersistKeeps(c);
    assert forall n :: Contains(c.services, n) <==> Contains(f.services, n) || n == name;
  }

  /** One `create` as the next invocation sees it, for one key. */
  lemma CreateStoredKey(f: Fleet, root: string, name: string, n: string)
    requires Create(f, root, name).Ok?
    ensures Contains(Persist(Create(f, root, name).value).services, n) <==> Contains(f.services, n) || n == name
  {
    CreateStored(f, root, name);
  }

  /** A run of successful creates stores the old keys together with the new
      ones. */
  lemma {:induction false} CreateAllKeys(f: Fleet, root: string, names: seq<string>)
    requires CreateAll(f, root, names).Ok?
    ensures var g := CreateAll(f, root, names).value;
      forall n :: Contains(g.services, n) <==> Contains(f.services, n) || n in names
    decreases |names|
  {
    if |names| > 0 {
      var g := Persist(Create(f, root, names[0]).value);
      CreateAllStep(f, root, names);
      CreateAllKeys(g, root, names[1..]);
      var h := CreateAll(g, root, names[1..]).value;
      assert names == [names[0]] + names[1..];
      forall n ensures Contains(h.services, n) <==> Contains(f.services, n) || n in names {
        CreateStoredKey(f, root, names[0], n);
      }
    }
  }

  /** A run of successful creates stores one more entry per name. */
  lemma {:induction false} CreateAllCount(f: Fleet, root: string, names: seq<string>)
    requires CreateAll(f, root, names).Ok?
    ensures |CreateAll(f, root, names).value.services| == |f.services| + |names|
    decreases |names|
  {
    if |names| > 0 {
      var g := Persist(Create(f, root, names[0]).value);
      CreateAllStep(f, root, names);
      CreateStored(f, root, names[0]);
      CreateAllCount(g, root, names[1..]);
    }
  }

  /** The names of a run of successful creates are all distinct and were
      all absent before it. */
  lemma {:induction false} CreateAllFresh(f: Fleet, root: string, names: seq<string>)
    requires CreateAll(f, root, names).Ok?
    ensures forall i :: 0 <= i < |names| ==> !Contains(f.services, names[i])
    ensures forall i, j :: 0 <= i < j < |names| ==> names[i] != names[j]
    decreases |names|
  {
    if |names| > 0 {
      var g := Persist(Create(f, root, names[0]).value);
      CreateAllStep(f, root, names);
      CreateAllFresh(g, root, names[1..]);
      forall i | 1 <= i < |names| ensures !Contains(f.services, names[i]) && names[0] != names[i] {
        assert names[i] == names[1..][i - 1];
        CreateStoredKey(f, root, names[0], names[i]);
      }
    }
  }

  /** After a run of successful creates the stored keys are sorted, and
      unique when they were before. */
  lemma {:induction false} CreateAllSorted(f: Fleet, root: string, names: seq<string>)
    requires CreateAll(f, root, names).Ok?
    ensures var g := CreateAll(f, root, names).value;
      && (|names| > 0 ==> SortedByName(g.services))
      && (Unique(f.services) ==> Unique(g.services))
    decreases |names|
  {
    if |names| > 0 {
      var g := Persist(Create(f, root, names[0]).value);
      CreateAllStep(f, root, names);
      CreateStored(f, root, names[0]);
      CreateAllSorted(g, root, names[1..]);
    }
  }

  /** A run of successful creates advances each port component by exactly
      the number of nodes created. */
  lemma {:induction false} CreateAllAdvances(f: Fleet, root: string, names: seq<string>)
    requires CreateAll(f, root, names).Ok?
    ensures var p := CreateAll(f, root, names).value.lastPorts;
      && p.listen == f.lastPorts.listen + |names|
      && p.rpc == f.lastPorts.rpc + |names|
      && p.rest == f.lastPorts.rest + |names|
    decreases |names|
  {
    if |names| > 0 {
      var g := Persist(Create(f, root, names[0]).value);
      CreateAllStep(f, root, names);
      CreateAllAdvances(g, root, names[1..]);
    }
  }

  /** The peer created by the next invocation always gets strictly larger
      ports, component by component, than the one created before it. */
  lemma CreateTwiceIncreases(f: Fleet, root: string, a: string, b: string)
    requires Create(f, root, a).Ok?
    requires Create(Persist(Create(f, root, a).value), root, b).Ok?
    ensures var pa := Create(f, root, a).value.lastPorts;
      var pb := Create(Persist(Create(f, root, a).value), root, b).value.lastPorts;
      pa.listen < pb.listen && pa.rpc < pb.rpc && pa.rest < pb.rest
    ensures a != b
  {
    var c := Create(f, root, a).value;
    var g := Persist(c);
    assert g.lastPorts == c.lastPorts;
    PersistKeeps(c);
    assert Contains(c.services, a);
  }

  /** Within one invocation, deleting a key just appended gives back the
      services as they were; the allocator keeps the advanced ports. */
  lemma CreateThenRemove(f: Fleet, root: string, name: string)
    requires name != BackendName
    requires Create(f, root, name).Ok?
    ensures Remove(Create(f, root, name).value, name)
         == Ok(Fleet(f.services, Create(f, root, name).value.lastPorts))
  {
    var g := Create(f, root, name).value;
    var e := Entry(name, Build(root, name, g.lastPorts));
    assert g.services == f.services + [e];
    DeleteAppended(f.services, e);
  }

  /** Within the invocation, `create` appends the built definition on the
      advanced ports. */
  lemma CreateAppends(f: Fleet, root: string, name: string)
    requires !Contains(f.services, name)
    ensures Create(f, root, name)
         == Ok(Fleet(f.services + [Entry(name, Build(root, name, Advance(f.lastPorts)))], Advance(f.lastPorts)))
  {
  }

  /** The stored entry of a key just created is the built definition, and
      the stored entries are the old ones plus that one. */
  lemma StoredCreated(f: Fleet, root: string, name: string)
    requires Unique(f.services)
    requires Create(f, root, name).Ok?
    ensures var g := Create(f, root, name).value;
      var p := Persist(g).services;
      && Contains(p, name)
      && p[IndexOf(p, name)] == Entry(name, Build(root, name, g.lastPorts))
      && multiset(p) == multiset(f.services) + multiset{Entry(name, Build(root, name, g.lastPorts))}
  {
    var g := Create(f, root, name).value;
    var e := Entry(name, Build(root, name, g.lastPorts));
    assert g.services == f.services + [e];
    var p := Persist(g).services;
    PersistKeeps(g);
    IndexOfContains(p, name);
    assert Lookup(p, name) == Some(Build(root, name, g.lastPorts));
  }

  /** `remove name` in the invocation after `create name` stores the
      services exactly as dumping them before the create would have: the
      sorted arrangement of unique keys is the only one. The allocator keeps
      the advanced ports. */
  lemma CreateThenRemoveStored(f: Fleet, root: string, name: string)
    requires Unique(f.services)
    requires name != BackendName
    requires Create(f, root, name).Ok?
    ensures Remove(Persist(Create(f, root, name).value), name)
         == Ok(Fleet(Persist(f).services, Create(f, root, name).value.lastPorts))
  {
    var g := Create(f, root, name).value;
    var p := Persist(g).services;
    PersistKeeps(g);
    StoredCreated(f, root, name);
    DeleteSortedEntry(p, Entry(name, Build(root, name, g.lastPorts)), Persist(f).services);
    assert Remove(Persist(g), name) == Ok(Fleet(Delete(p, name), g.lastPorts));
  }

  /** After a successful `remove`, `config` on that name in the next
      invocation reports NotFound. */
  lemma RemoveThenConfig(f: Fleet, name: string)
    requires Unique(f.services)
    requires Remove(f, name).Ok?
    ensures Config(Persist(Remove(f, name).value), name) == Err(NotFound)
  {
    PersistKeeps(Remove(f, name).value);
  }

  /** `remove` of the backend never succeeds and changes nothing. */
  lemma BackendStays(f: Fleet, name: string, root: string)
    requires Contains(f.services, BackendName)
    ensures Remove(f, BackendName) == Err(Protected)
    ensures Remove(f, name).Ok? && Unique(f.services) ==> Contains(Remove(f, name).value.services, BackendName)
    ensures Create(f, root, BackendName) == Err(AlreadyExists)
  {
  }
}

=== FILE: definition.dfy ===
/** The port allocator's state and the service definition written for a new
    Lightning peer (`create` in torch-cli.py). */
module Definition {
  import opened Basics
  import opened Text

  /** The three ports of a peer: peer-to-peer listen, gRPC control, REST. */
  datatype PortTriple = PortTriple(listen: nat, rpc: nat, rest: nat)

  /** One entry of the compose document's `services` mapping. The reserved
      backend entry is written by hand outside the tool, so every field is
      free-form here; `Build` fixes their shape for peers. */
  datatype Service = Service(
    image: string,
    containerName: string,
    command: seq<string>,
    ports: seq<string>,
    volumes: seq<string>,
    dependsOn: seq<string>,
    restart: string)

  /** The name of the backend chain node; it is also its compose service key. */
  const BackendName: string := "bitcoin"

  const LndImage: string := "lightninglabs/lnd:v0.12.0-beta"

  /** The next triple: every component advanced by one. */
  function Advance(p: PortTriple): (q: PortTriple)
    ensures p.listen < q.listen && p.rpc < q.rpc && p.rest < q.rest
    ensures q.listen - p.listen == q.rpc - p.rpc == q.rest - p.rest == 1
  {
    PortTriple(p.listen + 1, p.rpc + 1, p.rest + 1)
  }

  /** A host-to-container port mapping that uses the same number on both sides. */
  function PortMapping(port: string): string
  {
    port + ":" + port
  }

  /** The arguments `Build` gives LND, split out so that each listener can be
      read back on its own. */
  function PeerArgs(name: string, listen: string, rpc: string, rest: string): seq<string>
  {
    NodeArgs(name, listen, rpc, rest) + ChainArgs
  }

  /** The node's own identity, data directory and listeners. */
  function NodeArgs(name: string, listen: string, rpc: string, rest: string): seq<string>
  {
    [ "--alias=" + name,
      "--lnddir=/root/.lnd",
      "--listen=0.0.0.0:" + listen,
      "--rpclisten=0.0.0.0:" + rpc,
      "--restlisten=0.0.0.0:" + rest,
      "--externalip=torch." + name + ":" + listen ]
  }

  /** How the node reaches the backend chain node; the same for every peer.
      A flag with a value is written as the flag followed by its value: the
      text is the same as one literal, and the split only keeps the proofs
      that read a flag's value cheap. */
  const ChainArgs: seq<string> :=
    [ "--bitcoin.node=" + "bitcoind",
      "--bitcoin.active",
      "--bitcoin.regtest",
      "--bitcoind.rpchost=" + "torch.bitcoin",
      "--bitcoind.rpcuser=" + "root",
      "--bitcoind.rpcpass=" + "root",
      "--bitcoind.zmqpubrawblock=" + "tcp://torch.bitcoin:28332",
      "--bitcoind.zmqpubrawtx=" + "tcp://torch.bitcoin:28333" ]

  /** The definition `create` writes for peer `name` on ports `p`; `root` is
      the tool's home directory (`~/.torch`). */
  function Build(root: string, name: string, p: PortTriple): (s: Service)
    ensures |s.ports| == 3
    ensures FirstField(s.ports[0], ':') == NatToString(p.listen)
    ensures FirstField(s.ports[1], ':') == NatToString(p.rpc)
    ensures FirstField(s.ports[2], ':') == NatToString(p.rest)
  {
    PortMappingRoundTrip(p.listen);
    PortMappingRoundTrip(p.rpc);
    PortMappingRoundTrip(p.rest);
    var listen := NatToString(p.listen);
    var rpc := NatToString(p.rpc);
    var rest := NatToString(p.rest);
    Service(
      LndImage,
      "torch." + name,
      PeerArgs(name, listen, rpc, rest),
      [PortMapping(listen), PortMapping(rpc), PortMapping(rest)],
      [root + "/data/" + name + ":/root/.lnd"],
      [BackendName],
      "always")
  }

  /** What a flag parser reads for `flag` from an argument list: the rest of
      the first argument that starts with `flag`. */
  function FlagValue(args: seq<string>, flag: string): (v: Option<string>)
    ensures v.Some? ==> exists i :: 0 <= i < |args| && args[i] == flag + v.value
    ensures v.None? ==> forall i :: 0 <= i < |args| ==> !(flag <= args[i])
  {
    if |args| == 0 then None
    else if flag <= args[0] then
      assert args[0] == flag + args[0][|flag|..];
      Some(args[0][|flag|..])
    else
      var v := FlagValue(args[1..], flag);
      assert v.Some? ==> args[1..][0..] == args[1..];
      v
  }

  /** Reading a port mapping back: the host side of `PortMapping` parses to
      the number that was rendered into it. */
  lemma PortMappingRoundTrip(port: nat)
    ensures FirstField(PortMapping(NatToString(port)), ':') == NatToString(port)
    ensures Split(PortMapping(NatToString(port)), ':') == [NatToString(port), NatToString(port)]
    ensures ParseNat(FirstField(PortMapping(NatToString(port)), ':')) == port
  {
    var s := NatToString(port);
    NatToStringHasNoSeparator(port);
    assert PortMapping(s) == s + [':'] + s;
    FirstFieldOfPair(s, ':', s);
    SplitJoin([s, s], ':');
    ParseNatToString(port);
  }

  /** The parser finds the value of the first argument carrying `flag`. */
  lemma {:induction false} FlagValueAt(args: seq<string>, flag: string, k: nat, v: string)
    requires k < |args| && args[k] == flag + v
    requires forall j :: 0 <= j < k ==> !(flag <= args[j])
    ensures FlagValue(args, flag) == Some(v)
    decreases k
  {
    if k > 0 {
      FlagValueAt(args[1..], flag, k - 1, v);
    }
  }

  /** Two strings that differ at position `i` are not prefix-related. */
  lemma DiffersAt(flag: string, arg: string, i: nat)
    requires i < |flag| && i < |arg| && flag[i] != arg[i]
    ensures !(flag <= arg)
  {
  }

  lemma ListenFlag(name: string, listen: string, rpc: string, rest: string)
    ensures FlagValue(PeerArgs(name, listen, rpc, rest), "--listen=0.0.0.0:") == Some(listen)
  {
    var a := PeerArgs(name, listen, rpc, rest);
    var flag := "--listen=0.0.0.0:";
    DiffersAt(flag, a[0], 2);
    DiffersAt(flag, a[1], 3);
    FlagValueAt(a, flag, 2, listen);
  }

  lemma RpcFlag(name: string, listen: string, rpc: string, rest: string)
    ensures FlagValue(PeerArgs(name, listen, rpc, rest), "--rpclisten=0.0.0.0:") == Some(rpc)
  {
    var a := PeerArgs(name, listen, rpc, rest);
    var flag := "--rpclisten=0.0.0.0:";
    DiffersAt(flag, a[0], 2);
    DiffersAt(flag, a[1], 2);
    DiffersAt(flag, a[2], 2);
    FlagValueAt(a, flag, 3, rpc);
  }

  lemma RestFlag(name: string, listen: string, rpc: string, rest: string)
    ensures FlagValue(PeerArgs(name, listen, rpc, rest), "--restlisten=0.0.0.0:") == Some(rest)
  {
    var a := PeerArgs(name, listen, rpc, rest);
    var flag := "--restlisten=0.0.0.0:";
    DiffersAt(flag, a[0], 2);
    DiffersAt(flag, a[1], 2);
    DiffersAt(flag, a[2], 2);
    DiffersAt(flag, a[3], 3);
    FlagValueAt(a, flag, 4, rest);
  }

  lemma ExternalFlag(name: string, listen: string, rpc: string, rest: string)
    ensures FlagValue(PeerArgs(name, listen, rpc, rest), "--externalip=") == Some("torch." + name + ":" + listen)
  {
    var a := PeerArgs(name, listen, rpc, rest);
    var flag := "--externalip=";
    DiffersAt(flag, a[0], 2);
    DiffersAt(flag, a[1], 2);
    DiffersAt(flag, a[2], 2);
    DiffersAt(flag, a[3], 2);
    DiffersAt(flag, a[4], 2);
    assert a[5] == flag + ("torch." + name + ":" + listen);
    FlagValueAt(a, flag, 5, "torch." + name + ":" + listen);
  }

  /** The listeners of a peer, read back as LND reads its arguments: they bind
      the three allocated ports, the advertised address is the listen port
      under the container's network name, and the alias is the node name. */
  lemma BuildFlags(root: string, name: string, p: PortTriple)
    ensures var a := Build(root, name, p).command;
      && FlagValue(a, "--alias=") == Some(name)
      && FlagValue(a, "--listen=0.0.0.0:") == Some(NatToString(p.listen))
      && FlagValue(a, "--rpclisten=0.0.0.0:") == Some(NatToString(p.rpc))
      && FlagValue(a, "--restlisten=0.0.0.0:") == Some(NatToString(p.rest))
      && FlagValue(a, "--externalip=") == Some("torch." + name + ":" + NatToString(p.listen))
  {
    var listen, rpc, rest := NatToString(p.listen), NatToString(p.rpc), NatToString(p.rest);
    var a := PeerArgs(name, listen, rpc, rest);
    assert Build(root, name, p).command == a;
    FlagValueAt(a, "--alias=", 0, name);
    ListenFlag(name, listen, rpc, rest);
    RpcFlag(name, listen, rpc, rest);
    RestFlag(name, listen, rpc, rest);
    ExternalFlag(name, listen, rpc, rest);
  }

  /** The rest of a peer definition: every port mapping is 1:1 on the
      allocated number, the data directory is the node's own under the home
      directory, and the node starts after the backend and always restarts. */
  lemma BuildShape(root: string, name: string, p: PortTriple)
    ensures var s := Build(root, name, p);
      && s.containerName == "torch." + name
      && s.image == LndImage
      && |s.ports| == 3
      && Split(s.ports[0], ':') == [NatToString(p.listen), NatToString(p.listen)]
      && Split(s.ports[1], ':') == [NatToString(p.rpc), NatToString(p.rpc)]
      && Split(s.ports[2], ':') == [NatToString(p.rest), NatToString(p.rest)]
      && s.volumes == [root + "/data/" + name + ":/root/.lnd"]
      && s.dependsOn == [BackendName]
      && s.restart == "always"
  {
    PortMappingRoundTrip(p.listen);
    PortMappingRoundTrip(p.rpc);
    PortMappingRoundTrip(p.rest);
  }

  /** How many arguments start with `flag`. */
  function Carrying(args: seq<string>, flag: string): nat
  {
    if |args| == 0 then 0
    else (if flag <= args[0] then 1 else 0) + Carrying(args[1..], flag)
  }

  lemma {:induction false} CarryingNone(args: seq<string>, flag: string)
    requires forall j :: 0 <= j < |args| ==> !(flag <= args[j])
    ensures Carrying(args, flag) == 0
    decreases |args|
  {
    if |args| > 0 {
      CarryingNone(args[1..], flag);
    }
  }

  /** Exactly one argument carries `flag` when only the one at `k` starts
      with it. */
  lemma {:induction false} CarryingOne(args: seq<string>, flag: string, k: nat)
    requires k < |args| && flag <= args[k]
    requires forall j :: 0 <= j < |args| && j != k ==> !(flag <= args[j])
    ensures Carrying(args, flag) == 1
    decreases k
  {
    if k > 0 {
      CarryingOne(args[1..], flag, k - 1);
    } else {
      CarryingNone(args[1..], flag);
    }
  }

  /** The chain arguments all start with `--b`, so no flag with another
      third character occurs among them. */
  lemma ChainArgsCarryNone(flag: string)
    requires 2 < |flag| && flag[2] != 'b'
    ensures Carrying(ChainArgs, flag) == 0
  {
    ChainArgsThird();
    forall j | 0 <= j < |ChainArgs| ensures !(flag <= ChainArgs[j]) {
      DiffersAt(flag, ChainArgs[j], 2);
    }
    CarryingNone(ChainArgs, flag);
  }

  lemma ChainArgsThird()
    ensures forall j :: 0 <= j < |ChainArgs| ==> 2 < |ChainArgs[j]| && ChainArgs[j][2] == 'b'
  {
  }

  lemma {:induction false} CarryingAppend(a: seq<string>, b: seq<string>, flag: string)
    ensures Carrying(a + b, flag) == Carrying(a, flag) + Carrying(b, flag)
    decreases |a|
  {
    if |a| > 0 {
      assert (a + b)[1..] == a[1..] + b;
      CarryingAppend(a[1..], b, flag);
    } else {
      assert a + b == b;
    }
  }

  lemma AliasOnce(name: string, listen: string, rpc: string, rest: string)
    ensures Carrying(PeerArgs(name, listen, rpc, rest), "--alias=") == 1
  {
    var a := NodeArgs(name, listen, rpc, rest);
    var flag := "--alias=";
    DiffersAt(flag, a[1], 2);
    DiffersAt(flag, a[2], 2);
    DiffersAt(flag, a[3], 2);
    DiffersAt(flag, a[4], 2);
    DiffersAt(flag, a[5], 2);
    CarryingOne(a, flag, 0);
    ChainArgsCarryNone(flag);
    CarryingAppend(a, ChainArgs, flag);
  }

  lemma ListenOnce(name: string, listen: string, rpc: string, rest: string)
    ensures Carrying(PeerArgs(name, listen, rpc, rest), "--listen=") == 1
  {
    var a := NodeArgs(name, listen, rpc, rest);
    var flag := "--listen=";
    DiffersAt(flag, a[0], 2);
    DiffersAt(flag, a[1], 3);
    DiffersAt(flag, a[3], 2);
    DiffersAt(flag, a[4], 2);
    DiffersAt(flag, a[5], 2);
    CarryingOne(a, flag, 2);
    ChainArgsCarryNone(flag);
    CarryingAppend(a, ChainArgs, flag);
  }

  lemma RpcOnce(name: string, listen: string, rpc: string, rest: string)
    ensures Carrying(PeerArgs(name, listen, rpc, rest), "--rpclisten=") == 1
  {
    var a := NodeArgs(name, listen, rpc, rest);
    var flag := "--rpclisten=";
    DiffersAt(flag, a[0], 2);
    DiffersAt(flag, a[1], 2);
    DiffersAt(flag, a[2], 2);
    DiffersAt(flag, a[4], 3);
    DiffersAt(flag, a[5], 2);
    CarryingOne(a, flag, 3);
    ChainArgsCarryNone(flag);
    CarryingAppend(a, ChainArgs, flag);
  }

  lemma RestOnce(name: string, listen: string, rpc: string, rest: string)
    ensures Carrying(PeerArgs(name, listen, rpc, rest), "--restlisten=") == 1
  {
    var a := NodeArgs(name, listen, rpc, rest);
    var flag := "--restlisten=";
    DiffersAt(flag, a[0], 2);
    DiffersAt(flag, a[1], 2);
    DiffersAt(flag, a[2], 2);
    DiffersAt(flag, a[3], 3);
    DiffersAt(flag, a[5], 2);
    CarryingOne(a, flag, 4);
    ChainArgsCarryNone(flag);
    CarryingAppend(a, ChainArgs, flag);
  }

  lemma ExternalOnce(name: string, listen: string, rpc: string, rest: string)
    ensures Carrying(PeerArgs(name, listen, rpc, rest), "--externalip=") == 1
  {
    var a := NodeArgs(name, listen, rpc, rest);
    var flag := "--externalip=";
    DiffersAt(flag, a[0], 2);
    DiffersAt(flag, a[1], 2);
    DiffersAt(flag, a[2], 2);
    DiffersAt(flag, a[3], 2);
    DiffersAt(flag, a[4], 2);
    CarryingOne(a, flag, 5);
    ChainArgsCarryNone(flag);
    CarryingAppend(a, ChainArgs, flag);
  }

  /** Each listener flag and the alias are given exactly once, whatever the
      value after `=`, so reading the first argument that carries a flag
      reads its only value. */
  lemma BuildFlagsOnce(root: string, name: string, p: PortTriple)
    ensures var a := Build(root, name, p).command;
      && Carrying(a, "--alias=") == 1
      && Carrying(a, "--listen=") == 1
      && Carrying(a, "--rpclisten=") == 1
      && Carrying(a, "--restlisten=") == 1
      && Carrying(a, "--externalip=") == 1
  {
    var listen, rpc, rest := NatToString(p.listen), NatToString(p.rpc), NatToString(p.rest);
    assert Build(root, name, p).command == PeerArgs(name, listen, rpc, rest);
    AliasOnce(name, listen, rpc, rest);
    ListenOnce(name, listen, rpc, rest);
    RpcOnce(name, listen, rpc, rest);
    RestOnce(name, listen, rpc, rest);
    ExternalOnce(name, listen, rpc, rest);
  }

  /** With no argument of `a` carrying `flag`, the parser reads `flag` from
      what follows `a`. */
  lemma {:induction false} FlagValueSkip(a: seq<string>, b: seq<string>, flag: string)
    requires forall j :: 0 <= j < |a| ==> !(flag <= a[j])
    ensures FlagValue(a + b, flag) == FlagValue(b, flag)
    decreases |a|
  {
    if |a| > 0 {
      assert (a + b)[1..] == a[1..] + b;
      assert (a + b)[0] == a[0];
      FlagValueSkip(a[1..], b, flag);
    } else {
      assert a + b == b;
    }
  }

  /** The node's own arguments all start with `--a`, `--l`, `--r` or `--e`,
      so none carries a flag that starts with `--b`. */
  lemma NodeArgsCarryNone(name: string, listen: string, rpc: string, rest: string, flag: string)
    requires 2 < |flag| && flag[2] == 'b'
    ensures forall j :: 0 <= j < 6 ==> !(flag <= NodeArgs(name, listen, rpc, rest)[j])
  {
    var a := NodeArgs(name, listen, rpc, rest);
    DiffersAt(flag, a[0], 2);
    DiffersAt(flag, a[1], 2);
    DiffersAt(flag, a[2], 2);
    DiffersAt(flag, a[3], 2);
    DiffersAt(flag, a[4], 2);
    DiffersAt(flag, a[5], 2);
  }

  /** A backend-connection flag is read from what follows the node's own
      arguments. */
  lemma ChainFlag(name: string, listen: string, rpc: string, rest: string, b: seq<string>, flag: string)
    requires 2 < |flag| && flag[2] == 'b'
    ensures FlagValue(NodeArgs(name, listen, rpc, rest) + b, flag) == FlagValue(b, flag)
  {
    NodeArgsCarryNone(name, listen, rpc, rest, flag);
    FlagValueSkip(NodeArgs(name, listen, rpc, rest), b, flag);
  }

  /** The backend connection as LND reads it from the chain arguments:
      `bitcoind` on regtest, reached at the backend's container with the
      root credentials, with block and transaction notifications on ports
      28332 and 28333. */
  lemma ChainNode()
    ensures FlagValue(ChainArgs, "--bitcoin.node=") == Some("bitcoind")
    ensures "--bitcoin.active" in ChainArgs && "--bitcoin.regtest" in ChainArgs
  {
    var c := ChainArgs;
    assert c[1] == "--bitcoin.active" && c[2] == "--bitcoin.regtest";
    assert c[0] == "--bitcoin.node=" + "bitcoind";
    FlagValueAt(c, "--bitcoin.node=", 0, "bitcoind");
  }

  lemma ChainHost()
    ensures FlagValue(ChainArgs, "--bitcoind.rpchost=") == Some("torch.bitcoin")
  {
    var c := ChainArgs;
    var flag := "--bitcoind.rpchost=";
    DiffersAt(flag, c[0], 9);
    DiffersAt(flag, c[1], 9);
    DiffersAt(flag, c[2], 9);
    assert c[3] == flag + "torch.bitcoin";
    FlagValueAt(c, flag, 3, "torch.bitcoin");
  }

  lemma ChainUser()
    ensures FlagValue(ChainArgs, "--bitcoind.rpcuser=") == Some("root")
  {
    var c := ChainArgs;
    var flag := "--bitcoind.rpcuser=";
    DiffersAt(flag, c[0], 9);
    DiffersAt(flag, c[1], 9);
    DiffersAt(flag, c[2], 9);
    DiffersAt(flag, c[3], 14);
    assert c[4] == flag + "root";
    FlagValueAt(c, flag, 4, "root");
  }

  lemma ChainPass()
    ensures FlagValue(ChainArgs, "--bitcoind.rpcpass=") == Some("root")
  {
    var c := ChainArgs;
    var flag := "--bitcoind.rpcpass=";
    DiffersAt(flag, c[0], 9);
    DiffersAt(flag, c[1], 9);
    DiffersAt(flag, c[2], 9);
    DiffersAt(flag, c[3], 14);
    DiffersAt(flag, c[4], 14);
    assert c[5] == flag + "root";
    FlagValueAt(c, flag, 5, "root");
  }

  lemma ChainBlocks()
    ensures FlagValue(ChainArgs, "--bitcoind.zmqpubrawblock=") == Some("tcp://torch.bitcoin:28332")
  {
    var c := ChainArgs;
    var flag := "--bitcoind.zmqpubrawblock=";
    DiffersAt(flag, c[0], 9);
    DiffersAt(flag, c[1], 9);
    DiffersAt(flag, c[2], 9);
    DiffersAt(flag, c[3], 11);
    DiffersAt(flag, c[4], 11);
    DiffersAt(flag, c[5], 11);
    assert c[6] == flag + "tcp://torch.bitcoin:28332";
    FlagValueAt(c, flag, 6, "tcp://torch.bitcoin:28332");
  }

  lemma ChainTransactions()
    ensures FlagValue(ChainArgs, "--bitcoind.zmqpubrawtx=") == Some("tcp://torch.bitcoin:28333")
  {
    var c := ChainArgs;
    var flag := "--bitcoind.zmqpubrawtx=";
    DiffersAt(flag, c[0], 9);
    DiffersAt(flag, c[1], 9);
    DiffersAt(flag, c[2], 9);
    DiffersAt(flag, c[3], 11);
    DiffersAt(flag, c[4], 11);
    DiffersAt(flag, c[5], 11);
    DiffersAt(flag, c[6], 20);
    assert c[7] == flag + "tcp://torch.bitcoin:28333";
    FlagValueAt(c, flag, 7, "tcp://torch.bitcoin:28333");
  }

  /** The data directory a peer is started with. */
  lemma NodeLndDir(name: string, listen: string, rpc: string, rest: string)
    ensures FlagValue(PeerArgs(name, listen, rpc, rest), "--lnddir=") == Some("/root/.lnd")
  {
    var a := PeerArgs(name, listen, rpc, rest);
    DiffersAt("--lnddir=", a[0], 2);
    assert a[1] == "--lnddir=" + "/root/.lnd";
    FlagValueAt(a, "--lnddir=", 1, "/root/.lnd");
  }

  /** The rest of a peer's arguments, read back as LND reads them: fourteen
      arguments, the data directory `/root/.lnd`, and a regtest `bitcoind`
      backend at the backend's container with the root credentials and its
      two notification endpoints. */
  lemma BuildChainArgs(root: string, name: string, p: PortTriple)
    ensures var a := Build(root, name, p).command;
      && |a| == 14
      && FlagValue(a, "--lnddir=") == Some("/root/.lnd")
      && FlagValue(a, "--bitcoin.node=") == Some("bitcoind")
      && "--bitcoin.active" in a && "--bitcoin.regtest" in a
      && FlagValue(a, "--bitcoind.rpchost=") == Some("torch.bitcoin")
      && FlagValue(a, "--bitcoind.rpcuser=") == Some("root")
      && FlagValue(a, "--bitcoind.rpcpass=") == Some("root")
      && FlagValue(a, "--bitcoind.zmqpubrawblock=") == Some("tcp://torch.bitcoin:28332")
      && FlagValue(a, "--bitcoind.zmqpubrawtx=") == Some("tcp://torch.bitcoin:28333")
  {
    var listen, rpc, rest := NatToString(p.listen), NatToString(p.rpc), NatToString(p.rest);
    assert Build(root, name, p).command == PeerArgs(name, listen, rpc, rest);
    PeerChainArgs(name, listen, rpc, rest);
    PeerChainNode(name, listen, rpc, rest);
    PeerChainLogin(name, listen, rpc, rest);
    PeerChainZmq(name, listen, rpc, rest);
  }

  lemma PeerChainArgs(name: string, listen: string, rpc: string, rest: string)
    ensures var a := PeerArgs(name, listen, rpc, rest);
      && |a| == 14
      && FlagValue(a, "--lnddir=") == Some("/root/.lnd")
      && "--bitcoin.active" in a && "--bitcoin.regtest" in a
  {
    var n := NodeArgs(name, listen, rpc, rest);
    NodeLndDir(name, listen, rpc, rest);
    ChainNode();
    assert (n + ChainArgs)[7] == ChainArgs[1] && (n + ChainArgs)[8] == ChainArgs[2];
  }

  /** The chain node, host and credentials a peer is started with. */
  lemma PeerChainNode(name: string, listen: string, rpc: string, rest: string)
    ensures var a := PeerArgs(name, listen, rpc, rest);
      && FlagValue(a, "--bitcoin.node=") == Some("bitcoind")
      && FlagValue(a, "--bitcoind.rpchost=") == Some("torch.bitcoin")
  {
    ChainNode();
    PeerChainFlag(name, listen, rpc, rest, "--bitcoin.node=", "bitcoind");
    ChainHost();
    PeerChainFlag(name, listen, rpc, rest, "--bitcoind.rpchost=", "torch.bitcoin");
  }

  lemma PeerChainLogin(name: string, listen: string, rpc: string, rest: string)
    ensures var a := PeerArgs(name, listen, rpc, rest);
      && FlagValue(a, "--bitcoind.rpcuser=") == Some("root")
      && FlagValue(a, "--bitcoind.rpcpass=") == Some("root")
  {
    ChainUser();
    PeerChainFlag(name, listen, rpc, rest, "--bitcoind.rpcuser=", "root");
    ChainPass();
    PeerChainFlag(name, listen, rpc, rest, "--bitcoind.rpcpass=", "root");
  }

  /** The backend's notification endpoints a peer subscribes to. */
  lemma PeerChainZmq(name: string, listen: string, rpc: string, rest: string)
    ensures var a := PeerArgs(name, listen, rpc, rest);
      && FlagValue(a, "--bitcoind.zmqpubrawblock=") == Some("tcp://torch.bitcoin:28332")
      && FlagValue(a, "--bitcoind.zmqpubrawtx=") == Some("tcp://torch.bitcoin:28333")
  {
    ChainBlocks();
    PeerChainFlag(name, listen, rpc, rest, "--bitcoind.zmqpubrawblock=", "tcp://torch.bitcoin:28332");
    ChainTransactions();
    PeerChainFlag(name, listen, rpc, rest, "--bitcoind.zmqpubrawtx=", "tcp://torch.bitcoin:28333");
  }

  lemma PeerChainFlag(name: string, listen: string, rpc: string, rest: string, flag: string, v: string)
    requires 2 < |flag| && flag[2] == 'b'
    requires FlagValue(ChainArgs, flag) == Some(v)
    ensures FlagValue(PeerArgs(name, listen, rpc, rest), flag) == Some(v)
  {
    ChainFlag(name, listen, rpc, rest, ChainArgs, flag);
  }
}

=== FILE: registry.dfy ===
/** The compose document's `services` mapping from node name to service
    definition, kept as a sequence of entries in document order: the order
    of the loaded file, with new keys appended in memory, and sorted by key
    again when the document is dumped. */
module Registry {
  import opened Basics
  import opened Text
  import opened Definition

  datatype Entry = Entry(name: string, service: Service)

  type Services = seq<Entry>

  /** The keys, in document order. */
  function Names(reg: Services): (names: seq<string>)
    ensures |names| == |reg|
    ensures forall i :: 0 <= i < |reg| ==> names[i] == reg[i].name
  {
    seq(|reg|, i requires 0 <= i < |reg| => reg[i].name)
  }

  predicate Contains(reg: Services, name: string)
  {
    name in Names(reg)
  }

  /** A mapping holds each key once. */
  predicate Unique(reg: Services)
  {
    forall i, j :: 0 <= i < j < |reg| ==> reg[i].name != reg[j].name
  }

  /** Position of the entry for `name`, or `|reg|` when there is none. */
  function IndexOf(reg: Services, name: string): (k: nat)
    ensures k <= |reg|
    ensures k < |reg| ==> reg[k].name == name
    ensures forall j :: 0 <= j < k ==> reg[j].name != name
    decreases |reg|
  {
    if |reg| == 0 then 0
    else if reg[0].name == name then 0
    else 1 + IndexOf(reg[1..], name)
  }

  lemma IndexOfContains(reg: Services, name: string)
    ensures IndexOf(reg, name) < |reg| <==> Contains(reg, name)
  {
  }

  /** The definition stored under `name`. */
  function Lookup(reg: Services, name: string): (r: Option<Service>)
    ensures r.Some? <==> Contains(reg, name)
    ensures r.Some? ==> Entry(name, r.value) in reg
    ensures r.Some? && Unique(reg) ==>
      forall i :: 0 <= i < |reg| && reg[i].name == name ==> reg[i].service == r.value
  {
    var k := IndexOf(reg, name);
    IndexOfContains(reg, name);
    if k < |reg| then Some(reg[k].service) else None
  }

  /** Deletes the entry for `name`; putting it back at its old position gives
      the mapping back, so every other entry keeps its order. */
  function Delete(reg: Services, name: string): (r: Services)
    ensures Contains(reg, name) ==> |r| == |reg| - 1
    ensures Contains(reg, name) ==>
      var k := IndexOf(reg, name); reg == r[..k] + [Entry(name, reg[k].service)] + r[k..]
    ensures !Contains(reg, name) ==> r == reg
  {
    var k := IndexOf(reg, name);
    IndexOfContains(reg, name);
    if k < |reg| then
      var r := reg[..k] + reg[k + 1..];
      assert r[..k] == reg[..k] && r[k..] == reg[k + 1..];
      assert reg == reg[..k] + [reg[k]] + reg[k + 1..];
      r
    else reg
  }

  lemma DeleteNames(reg: Services, name: string)
    requires Contains(reg, name)
    ensures var k := IndexOf(reg, name);
      Names(Delete(reg, name)) == Names(reg)[..k] + Names(reg)[k + 1..]
  {
    IndexOfContains(reg, name);
  }

  /** With unique keys, the deleted key occurs in neither part of the names
      around its position. */
  lemma NameOnlyAt(reg: Services, name: string)
    requires Unique(reg) && Contains(reg, name)
    ensures var k := IndexOf(reg, name);
      name !in Names(reg)[..k] && name !in Names(reg)[k + 1..]
  {
    var k := IndexOf(reg, name);
    IndexOfContains(reg, name);
    var tail := Names(reg)[k + 1..];
    forall i | 0 <= i < |tail| ensures tail[i] != name {
      assert tail[i] == reg[k + 1 + i].name;
    }
  }

  /** On a mapping with unique keys, deletion removes exactly the one key. */
  lemma DeleteExactlyOne(reg: Services, name: string)
    requires Unique(reg)
    ensures forall n :: Contains(Delete(reg, name), n) <==> Contains(reg, n) && n != name
  {
    IndexOfContains(reg, name);
    if Contains(reg, name) {
      var k := IndexOf(reg, name);
      var ns := Names(reg);
      var ds := Names(Delete(reg, name));
      DeleteNames(reg, name);
      NameOnlyAt(reg, name);
      assert ns == ns[..k] + [name] + ns[k + 1..];
      forall n ensures n in ds <==> n in ns && n != name {
        assert n in ds <==> n in ns[..k] || n in ns[k + 1..];
      }
    }
  }

  /** Deletion keeps the keys unique. */
  lemma DeleteUnique(reg: Services, name: string)
    requires Unique(reg)
    ensures Unique(Delete(reg, name))
  {
    var r := Delete(reg, name);
    var k := IndexOf(reg, name);
    IndexOfContains(reg, name);
    if k < |reg| {
      forall i, j | 0 <= i < j < |r| ensures r[i].name != r[j].name {
        var i' := if i < k then i else i + 1;
        var j' := if j < k then j else j + 1;
        assert r[i] == reg[i'] && r[j] == reg[j'];
      }
    }
  }

  lemma DeleteOnUnique(reg: Services, name: string)
    ensures Unique(reg) ==> Unique(Delete(reg, name))
    ensures Unique(reg) ==> forall n :: Contains(Delete(reg, name), n) <==> Contains(reg, n) && n != name
  {
    if Unique(reg) {
      DeleteExactlyOne(reg, name);
      DeleteUnique(reg, name);
    }
  }

  /** Appends a new key; the mapping stays unique when the key was absent. */
  function Insert(reg: Services, name: string, s: Service): (r: Services)
    requires !Contains(reg, name)
    ensures Names(r) == Names(reg) + [name]
    ensures Unique(reg) ==> Unique(r)
    ensures Lookup(r, name) == Some(s)
    ensures forall n :: n != name ==> Lookup(r, n) == Lookup(reg, n)
  {
    var r := reg + [Entry(name, s)];
    assert Names(r) == Names(reg) + [name];
    forall n | n != name ensures Lookup(r, n) == Lookup(reg, n) {
      IndexOfAppend(reg, Entry(name, s), n);
      IndexOfContains(reg, n);
    }
    IndexOfAppend(reg, Entry(name, s), name);
    IndexOfContains(reg, name);
    r
  }

  /** Deleting a key that was just appended undoes the append. */
  lemma DeleteAppended(reg: Services, e: Entry)
    requires !Contains(reg, e.name)
    ensures Delete(reg + [e], e.name) == reg
  {
    IndexOfAppend(reg, e, e.name);
    IndexOfContains(reg, e.name);
    IndexOfContains(reg + [e], e.name);
    assert (reg + [e])[..|reg|] == reg;
  }

  /** Appending an entry leaves the position of every earlier key alone. */
  lemma {:induction false} IndexOfAppend(reg: Services, e: Entry, n: string)
    ensures IndexOf(reg + [e], n) ==
      if IndexOf(reg, n) < |reg| || e.name == n then IndexOf(reg, n) else |reg| + 1
    decreases |reg|
  {
    if |reg| > 0 {
      assert (reg + [e])[1..] == reg[1..] + [e];
      IndexOfAppend(reg[1..], e, n);
    }
  }

  /** Keys never decrease along the sequence: the order in which the YAML
      dumper writes a mapping. */
  predicate SortedByName(reg: Services)
  {
    forall i, j :: 0 <= i < j < |reg| ==> !Less(reg[j].name, reg[i].name)
  }

  /** An entry no later key is below can be put in front of a sorted
      sequence. */
  lemma SortedCons(x: Entry, reg: Services)
    requires SortedByName(reg)
    requires forall k :: 0 <= k < |reg| ==> !Less(reg[k].name, x.name)
    ensures SortedByName([x] + reg)
  {
    var r := [x] + reg;
    forall i, j | 0 <= i < j < |r| ensures !Less(r[j].name, r[i].name) {
      assert r[j] == reg[j - 1];
      if i > 0 {
        assert r[i] == reg[i - 1];
      }
    }
  }

  /** Inserts `e` into a sorted sequence before the first entry whose key
      is not below its own. */
  function Place(e: Entry, reg: Services): (r: Services)
    requires SortedByName(reg)
    ensures SortedByName(r)
    ensures multiset(r) == multiset(reg) + multiset{e}
    decreases |reg|
  {
    if |reg| == 0 || !Less(reg[0].name, e.name) then
      forall k | 0 <= k < |reg| ensures !Less(reg[k].name, e.name) {
        PlaceBefore(e, reg, k);
      }
      SortedCons(e, reg);
      [e] + reg
    else
      var rest := Place(e, reg[1..]);
      PlaceTail(e, reg, rest);
      SortedCons(reg[0], rest);
      assert reg == [reg[0]] + reg[1..];
      [reg[0]] + rest
  }

  /** When `e` goes after the first entry, nothing placed behind that entry
      has a key below it. */
  lemma PlaceTail(e: Entry, reg: Services, rest: Services)
    requires SortedByName(reg) && |reg| > 0 && Less(reg[0].name, e.name)
    requires multiset(rest) == multiset(reg[1..]) + multiset{e}
    ensures forall k :: 0 <= k < |rest| ==> !Less(rest[k].name, reg[0].name)
  {
    forall k | 0 <= k < |rest| ensures !Less(rest[k].name, reg[0].name) {
      assert rest[k] in multiset(reg[1..]) + multiset{e};
      if rest[k] == e {
        LessAsymmetric(reg[0].name, e.name);
      } else {
        assert rest[k] in reg[1..];
        var m :| 1 <= m < |reg| && reg[m] == rest[k];
      }
    }
  }

  /** In a sorted sequence whose first key is not below `e`'s, no key is. */
  lemma PlaceBefore(e: Entry, reg: Services, k: nat)
    requires SortedByName(reg) && k < |reg| && !Less(reg[0].name, e.name)
    ensures !Less(reg[k].name, e.name)
  {
    if k > 0 && Less(reg[k].name, e.name) {
      LessTotal(reg[0].name, e.name);
      if reg[0].name != e.name {
        LessTransitive(reg[k].name, e.name, reg[0].name);
      }
      assert false;
    }
  }

  /** The mapping as the YAML dumper writes it: the same entries, sorted by
      key. */
  function SortByName(reg: Services): (r: Services)
    ensures SortedByName(r)
    ensures multiset(r) == multiset(reg)
    decreases |reg|
  {
    if |reg| == 0 then []
    else
      assert reg == [reg[0]] + reg[1..];
      Place(reg[0], SortByName(reg[1..]))
  }

  /** Three entries in key order are sorted. */
  lemma SortedThree(x: Entry, y: Entry, z: Entry)
    requires !Less(y.name, x.name) && !Less(z.name, y.name) && !Less(z.name, x.name)
    ensures SortedByName([x, y, z])
  {
  }

  /** Two entries out of key order change places. */
  lemma SortSwapsPair(x: Entry, y: Entry)
    requires Less(y.name, x.name)
    ensures SortByName([x, y]) == [y, x]
  {
    assert [x, y][1..] == [y];
    assert [y][1..] == [];
    assert SortByName([y]) == Place(y, []) == [y];
    assert [y][1..] == [];
    assert Place(x, [y]) == [y] + Place(x, []);
  }

  /** A sequence that is already sorted is dumped as it is. */
  lemma {:induction false} SortSorted(reg: Services)
    requires SortedByName(reg)
    ensures SortByName(reg) == reg
    decreases |reg|
  {
    if |reg| > 0 {
      SortSorted(reg[1..]);
      assert reg == [reg[0]] + reg[1..];
    }
  }

  /** Two sequences holding the same entries hold the same keys. */
  lemma SameEntriesContain(a: Services, b: Services, n: string)
    requires multiset(a) == multiset(b)
    ensures Contains(a, n) <==> Contains(b, n)
  {
    if Contains(a, n) {
      var i :| 0 <= i < |a| && a[i].name == n;
      assert a[i] in multiset(b);
      var j :| 0 <= j < |b| && b[j] == a[i];
      assert Names(b)[j] == n;
    }
    if Contains(b, n) {
      var j :| 0 <= j < |b| && b[j].name == n;
      assert b[j] in multiset(a);
      var i :| 0 <= i < |a| && a[i] == b[j];
      assert Names(a)[i] == n;
    }
  }

  /** With unique keys in `a`, a sequence holding the same entries finds the
      same definition under every key. */
  lemma SameEntriesLookup(a: Services, b: Services, n: string)
    requires multiset(a) == multiset(b) && Unique(a)
    ensures Lookup(a, n) == Lookup(b, n)
  {
    SameEntriesContain(a, b, n);
    if Contains(b, n) {
      var v := Lookup(b, n).value;
      assert Entry(n, v) in multiset(a);
      var i :| 0 <= i < |a| && a[i] == Entry(n, v);
    }
  }

  /** The keys of a tail: with unique keys the first key is not among them,
      and a key absent from the whole is absent from the tail. */
  lemma TailKeys(reg: Services, n: string)
    requires |reg| > 0
    ensures Unique(reg) ==> !Contains(reg[1..], reg[0].name)
    ensures !Contains(reg, n) ==> !Contains(reg[1..], n)
  {
    forall k | 0 <= k < |reg| - 1 ensures Names(reg[1..])[k] == Names(reg)[k + 1] {
    }
  }

  /** Placing a new key keeps the keys unique. */
  lemma {:induction false} PlaceUnique(e: Entry, reg: Services)
    requires SortedByName(reg) && Unique(reg) && !Contains(reg, e.name)
    ensures Unique(Place(e, reg))
    decreases |reg|
  {
    if |reg| == 0 || !Less(reg[0].name, e.name) {
      ConsUnique(e, reg);
    } else {
      var rest := Place(e, reg[1..]);
      TailKeys(reg, e.name);
      PlaceUnique(e, reg[1..]);
      assert reg[0].name != e.name by {
        assert Names(reg)[0] == reg[0].name;
      }
      SameEntriesContain(rest, reg[1..] + [e], reg[0].name);
      assert !Contains(reg[1..] + [e], reg[0].name) by {
        assert Names(reg[1..] + [e]) == Names(reg[1..]) + [e.name];
      }
      ConsUnique(reg[0], rest);
    }
  }

  /** A key absent from unique keys can go in front. */
  lemma ConsUnique(x: Entry, reg: Services)
    requires Unique(reg) && !Contains(reg, x.name)
    ensures Unique([x] + reg)
  {
    var r := [x] + reg;
    forall i, j | 0 <= i < j < |r| ensures r[i].name != r[j].name {
      assert r[j] == reg[j - 1];
      if i == 0 {
        assert Names(reg)[j - 1] == r[j].name;
      } else {
        assert r[i] == reg[i - 1];
      }
    }
  }

  /** Sorting keeps unique keys unique. */
  lemma {:induction false} SortUnique(reg: Services)
    requires Unique(reg)
    ensures Unique(SortByName(reg))
    decreases |reg|
  {
    if |reg| > 0 {
      var rest := SortByName(reg[1..]);
      assert Unique(reg[1..]);
      SortUnique(reg[1..]);
      SameEntriesContain(rest, reg[1..], reg[0].name);
      TailKeys(reg, reg[0].name);
      PlaceUnique(reg[0], rest);
    }
  }

  /** Deleting from a sorted sequence leaves it sorted. */
  lemma DeleteSorted(reg: Services, name: string)
    requires SortedByName(reg)
    ensures SortedByName(Delete(reg, name))
  {
    var r := Delete(reg, name);
    var k := IndexOf(reg, name);
    IndexOfContains(reg, name);
    if k < |reg| {
      forall i, j | 0 <= i < j < |r| ensures !Less(r[j].name, r[i].name) {
        var i' := if i < k then i else i + 1;
        var j' := if j < k then j else j + 1;
        assert r[i] == reg[i'] && r[j] == reg[j'];
      }
    }
  }

  /** Deletion takes away exactly the one entry found under the key. */
  lemma DeleteEntries(reg: Services, name: string)
    requires Contains(reg, name)
    ensures multiset(Delete(reg, name)) == multiset(reg) - multiset{reg[IndexOf(reg, name)]}
  {
    IndexOfContains(reg, name);
    var r := Delete(reg, name);
    var k := IndexOf(reg, name);
    assert r == r[..k] + r[k..];
    assert multiset(reg) == multiset(r[..k]) + multiset{reg[k]} + multiset(r[k..]);
  }

  /** What a tail inherits: its entries are the whole's minus the first, and
      it is sorted and unique when the whole is. */
  lemma TailFacts(reg: Services)
    requires |reg| > 0
    ensures multiset(reg[1..]) == multiset(reg) - multiset{reg[0]}
    ensures SortedByName(reg) ==> SortedByName(reg[1..])
    ensures Unique(reg) ==> Unique(reg[1..])
  {
    assert reg == [reg[0]] + reg[1..];
  }

  /** Two sorted sequences holding the same entries, the first with unique
      keys, start with the same entry. */
  lemma SortedHeads(a: Services, b: Services)
    requires SortedByName(a) && SortedByName(b) && Unique(a)
    requires multiset(a) == multiset(b) && |a| > 0
    ensures |b| > 0 && a[0] == b[0]
  {
    assert a[0] in multiset(b);
    var j :| 0 <= j < |b| && b[j] == a[0];
    assert b[0] in multiset(a);
    var i :| 0 <= i < |a| && a[i] == b[0];
    if i > 0 && j > 0 {
      assert !Less(a[i].name, a[0].name) && !Less(a[0].name, a[i].name);
      LessTotal(a[0].name, a[i].name);
      assert false;
    }
  }

  /** A sorted arrangement of entries with unique keys is the only one:
      two sorted sequences holding the same entries are equal. */
  lemma {:induction false} SortedUniqueEqual(a: Services, b: Services)
    requires SortedByName(a) && SortedByName(b) && Unique(a)
    requires multiset(a) == multiset(b)
    ensures a == b
    decreases |a|
  {
    if |a| == 0 {
      assert |multiset(b)| == 0;
    } else {
      SortedHeads(a, b);
      TailFacts(a);
      TailFacts(b);
      SortedUniqueEqual(a[1..], b[1..]);
      assert a == [a[0]] + a[1..] && b == [b[0]] + b[1..];
    }
  }

  /** Sorting changes neither which keys are present nor, with unique keys,
      what is found under them. */
  lemma SortKeeps(reg: Services)
    ensures |SortByName(reg)| == |reg|
    ensures forall n :: Contains(SortByName(reg), n) <==> Contains(reg, n)
    ensures Unique(reg) ==> Unique(SortByName(reg))
    ensures Unique(reg) ==> forall n :: Lookup(SortByName(reg), n) == Lookup(reg, n)
  {
    var r := SortByName(reg);
    assert |multiset(r)| == |multiset(reg)|;
    forall n ensures Contains(r, n) <==> Contains(reg, n) {
      SameEntriesContain(r, reg, n);
    }
    if Unique(reg) {
      SortUnique(reg);
      forall n ensures Lookup(r, n) == Lookup(reg, n) {
        SameEntriesLookup(reg, r, n);
      }
    }
  }

  /** Deleting a key from a sorted sequence with unique keys gives the
      sorted arrangement of the remaining entries. */
  lemma DeleteSortedEntry(p: Services, e: Entry, q: Services)
    requires SortedByName(p) && Unique(p) && SortedByName(q)
    requires Contains(p, e.name) && p[IndexOf(p, e.name)] == e
    requires multiset(p) == multiset(q) + multiset{e}
    ensures Delete(p, e.name) == q
  {
    var d := Delete(p, e.name);
    DeleteEntries(p, e.name);
    DeleteSorted(p, e.name);
    DeleteUnique(p, e.name);
    assert multiset(d) == (multiset(q) + multiset{e}) - multiset{e};
    SortedUniqueEqual(d, q);
  }
}

=== FILE: router.dfy ===
/** `exec_cli` of torch-cli.py: choosing the node's command-line dialect and
    building the `docker exec` invocation that runs a raw command in it. */
module Router {
  import opened Basics
  import opened Text
  import opened Definition
  import opened Registry

  /** Interactive attaches to the operator's terminal; Captured collects the
      standard output to be parsed as JSON. */
  datatype Mode = Interactive | Captured

  /** One shell command handed to the host: how it is run and its text. */
  datatype Event = Event(mode: Mode, shell: string)

  /** The backend speaks `bitcoin-cli`; every other node speaks `lncli`
      against the control port read from its definition. */
  datatype Dialect = BitcoinCli | Lncli(rpcPort: string)

  const ExecPrefix: string := "docker exec -i -t "

  /** The backend's command line, to which the raw command is appended. */
  const BackendCli: string := "torch.bitcoin bitcoin-cli --regtest "

  /** A peer's command line around its control port. The tail is written in
      pieces, which spell the same text as one literal; the pieces only keep
      the proofs about its data directory cheap. */
  const LncliFlags: string := "lncli --network regtest --rpcserver=127.0.0.1:"
  const LncliTail: string := " --lnddir=" + "/root/.lnd" + " " + "--tlscertpath=" + "/root/.lnd" + "/tls.cert "

  /** The whole shell text before a raw command routed to the backend. */
  const BackendShell: string := ExecPrefix + BackendCli

  /** The control port of a peer: the host side of its second port mapping. */
  function RpcPort(s: Service): (r: Result<string>)
    ensures r.Err? <==> |s.ports| < 2
    ensures r.Err? ==> r.error == MissingRpcPort
    ensures r.Ok? ==> ':' !in r.value && r.value <= s.ports[1]
    ensures r.Ok? ==> r.value == s.ports[1] || (|r.value| < |s.ports[1]| && s.ports[1][|r.value|] == ':')
  {
    if |s.ports| < 2 then Err(MissingRpcPort)
    else Ok(FirstField(s.ports[1], ':'))
  }

  /** The dialect `name` is driven with, chosen once by name. */
  function DialectOf(reg: Services, name: string): (r: Result<Dialect>)
    ensures !Contains(reg, name) ==> r == Err(NodeNotFound)
    ensures Contains(reg, name) && name == BackendName ==> r == Ok(BitcoinCli)
    ensures r.Ok? <==> Contains(reg, name) && (name == BackendName || |Lookup(reg, name).value.ports| >= 2)
    ensures r.Ok? && name != BackendName ==>
      r.value.Lncli? && RpcPort(Lookup(reg, name).value) == Ok(r.value.rpcPort)
  {
    match Lookup(reg, name)
    case None => Err(NodeNotFound)
    case Some(s) =>
      if name == BackendName then Ok(BitcoinCli)
      else
        match RpcPort(s)
        case Err(e) => Err(e)
        case Ok(port) => Ok(Lncli(port))
  }

  /** The container-qualified command line of `name`'s dialect, up to the
      raw command that follows it. */
  function CliPrefix(d: Dialect, name: string): (r: string)
    ensures d.BitcoinCli? ==> "torch." + BackendName + " " <= r
    ensures d.Lncli? ==> "torch." + name + " " <= r
    ensures d.Lncli? ==> |r| > |BackendCli|
    ensures |r| > 0 && r[|r| - 1] == ' '
  {
    match d
    case BitcoinCli => BackendCli
    case Lncli(port) =>
      var container := "torch." + name + " ";
      var cli := LncliFlags + port + LncliTail;
      assert (container + cli)[..|container|] == container;
      container + cli
  }

  /** `exec_cli(name, command, interactive)`: the shell command it runs. The
      raw command is passed verbatim at the end of the invocation. */
  function Dispatch(reg: Services, name: string, command: string, mode: Mode): (r: Result<Event>)
    ensures !Contains(reg, name) ==> r == Err(NodeNotFound)
    ensures r.Err? <==> DialectOf(reg, name).Err?
    ensures r.Ok? ==> r.value.mode == mode
    ensures r.Ok? ==> ExecPrefix <= r.value.shell && EndsWith(r.value.shell, command)
  {
    match DialectOf(reg, name)
    case Err(e) => Err(e)
    case Ok(d) =>
      EndsWithAfter(ExecPrefix, CliPrefix(d, name), command);
      Ok(Event(mode, ExecPrefix + (CliPrefix(d, name) + command)))
  }

  /** Routing to the backend: `bitcoin-cli` on regtest, command verbatim. */
  lemma DispatchBackend(reg: Services, command: string, mode: Mode)
    ensures Contains(reg, BackendName) ==>
      Dispatch(reg, BackendName, command, mode) == Ok(Event(mode, BackendShell + command))
  {
    assert ExecPrefix + (BackendCli + command) == BackendShell + command;
  }

  /** The control port read back from a definition that `Build` wrote is the
      allocated one, and it is the port LND's `--rpclisten` binds. */
  lemma BuiltRpcPort(root: string, name: string, p: PortTriple)
    ensures RpcPort(Build(root, name, p)) == Ok(NatToString(p.rpc))
    ensures ParseNat(RpcPort(Build(root, name, p)).value) == p.rpc
    ensures FlagValue(Build(root, name, p).command, "--rpclisten=0.0.0.0:") == Some(RpcPort(Build(root, name, p)).value)
  {
    PortMappingRoundTrip(p.rpc);
    BuildFlags(root, name, p);
  }

  /** The port round trip: a peer whose stored definition is the one `Build`
      wrote is driven through `lncli` pointed at its allocated control port,
      with the raw command at the end. */
  lemma PeerPortRoundTrip(reg: Services, root: string, name: string, p: PortTriple, command: string, mode: Mode)
    requires name != BackendName
    requires Lookup(reg, name) == Some(Build(root, name, p))
    ensures Dispatch(reg, name, command, mode) == Ok(Event(mode, PeerShell(name, NatToString(p.rpc), command)))
  {
    var port := NatToString(p.rpc);
    BuiltRpcPort(root, name, p);
    assert DialectOf(reg, name) == Ok(Lncli(port));
    PeerShellText(name, port, command);
  }

  /** The shell command that runs `command` through `lncli` in peer `name`
      whose control port is `port`. */
  function PeerShell(name: string, port: string, command: string): string
  {
    "docker exec -i -t torch." + name + " " + LncliFlags + port + LncliTail + command
  }

  lemma PeerShellText(name: string, port: string, command: string)
    ensures ExecPrefix + (CliPrefix(Lncli(port), name) + command) == PeerShell(name, port, command)
  {
    var container := "torch." + name + " ";
    var cli := LncliFlags + port + LncliTail;
    assert CliPrefix(Lncli(port), name) == container + cli;
    var head := "docker exec -i -t torch." + name + " ";
    assert ExecPrefix + container == head by {
      assert ExecPrefix + "torch." == "docker exec -i -t torch.";
    }
    assert ExecPrefix + ((container + cli) + command) == head + cli + command;
    assert head + cli + command == PeerShell(name, port, command);
  }

  /** Routing to any peer that has a second port mapping: `lncli` in the
      peer's container, pointed at the host side of that mapping, with the
      raw command at the end. */
  lemma DispatchPeer(reg: Services, name: string, command: string, mode: Mode)
    requires name != BackendName
    ensures Contains(reg, name) && |Lookup(reg, name).value.ports| >= 2 ==>
      Dispatch(reg, name, command, mode)
        == Ok(Event(mode, PeerShell(name, FirstField(Lookup(reg, name).value.ports[1], ':'), command)))
  {
    if Contains(reg, name) && |Lookup(reg, name).value.ports| >= 2 {
      PeerShellText(name, FirstField(Lookup(reg, name).value.ports[1], ':'), command);
    }
  }

  /** The two dialects never produce the same shell command for the same raw
      command: the peer's fixed `lncli` text is longer than the backend's. */
  lemma DialectsDiffer(reg: Services, peer: string, command: string, mode: Mode)
    requires peer != BackendName
    requires Contains(reg, BackendName)
    requires Contains(reg, peer) && |Lookup(reg, peer).value.ports| >= 2
    ensures Dispatch(reg, BackendName, command, mode).value.shell
         != Dispatch(reg, peer, command, mode).value.shell
  {
    var d := DialectOf(reg, peer).value;
    assert |CliPrefix(d, peer)| > |BackendCli|;
  }

  /** `exec name word...`: the words joined with single spaces, run
      interactively; the words can be split back out of the raw command. */
  function RpcExec(reg: Services, name: string, words: seq<string>): (r: Result<Event>)
    ensures r.Ok? <==> Dispatch(reg, name, "", Interactive).Ok?
    ensures r.Ok? ==> r.value.mode == Interactive
    ensures r.Ok? ==> ExecPrefix <= r.value.shell && EndsWith(r.value.shell, Join(words, ' '))
  {
    Dispatch(reg, name, Join(words, ' '), Interactive)
  }

  /** A word list without spaces survives the join that `exec` performs. */
  lemma RpcExecWords(words: seq<string>)
    requires |words| >= 1
    requires forall i :: 0 <= i < |words| ==> ' ' !in words[i]
    ensures Split(Join(words, ' '), ' ') == words
  {
    SplitJoin(words, ' ');
  }

  /** The text `exec` runs: `bitcoin-cli` in the backend's container for the
      backend, otherwise `lncli` in the named peer's container pointed at the
      host side of its second port mapping; the joined words at the end. */
  lemma RpcExecText(reg: Services, name: string, words: seq<string>)
    ensures RpcExec(reg, name, words).Ok? && name == BackendName ==>
      RpcExec(reg, name, words).value.shell == BackendShell + Join(words, ' ')
    ensures RpcExec(reg, name, words).Ok? && name != BackendName ==>
      && |Lookup(reg, name).value.ports| >= 2
      && RpcExec(reg, name, words).value.shell
         == PeerShell(name, FirstField(Lookup(reg, name).value.ports[1], ':'), Join(words, ' '))
  {
    var command := Join(words, ' ');
    if name == BackendName {
      DispatchBackend(reg, command, Interactive);
    } else {
      DispatchPeer(reg, name, command, Interactive);
    }
  }

  /** One data directory throughout: the `--lnddir` a peer's LND is started
      with is the container side of its data volume, and it is the directory
      `lncli` is pointed at, with the TLS certificate inside it. */
  lemma DataDirAgrees(root: string, name: string, p: PortTriple)
    ensures var s := Build(root, name, p);
      var d := FlagValue(s.command, "--lnddir=");
      && d.Some?
      && |s.volumes| == 1 && EndsWith(s.volumes[0], ":" + d.value)
      && " --lnddir=" + d.value + " " <= LncliTail
      && EndsWith(LncliTail, " --tlscertpath=" + d.value + "/tls.cert ")
  {
    BuildChainArgs(root, name, p);
    VolumeDir(root, name, p);
    LncliDir();
  }

  lemma VolumeDir(root: string, name: string, p: PortTriple)
    ensures |Build(root, name, p).volumes| == 1
    ensures EndsWith(Build(root, name, p).volumes[0], ":" + "/root/.lnd")
  {
  }

  lemma LncliDir()
    ensures " --lnddir=" + "/root/.lnd" + " " <= LncliTail
    ensures EndsWith(LncliTail, " --tlscertpath=" + "/root/.lnd" + "/tls.cert ")
  {
  }
}

=== FILE: scenario.dfy ===
/** The end-to-end walk-through of the tool: starting from a fleet that holds
    only the backend, create `alice` then `bob`, connect them and open a
    channel between them. */
module Scenario {
  import opened Basics
  import opened Text
  import opened Definition
  import opened Registry
  import opened Commands
  import opened Router
  import opened Topology

  /** In the invocations after `create name`, the new peer is routed through
      `lncli` on the control port the allocator handed it, one above the
      stored one. */
  lemma CreatedPeerRoute(f: Fleet, root: string, name: string, command: string, mode: Mode)
    requires Unique(f.services)
    requires name != BackendName
    requires Create(f, root, name).Ok?
    ensures Dispatch(Persist(Create(f, root, name).value).services, name, command, mode)
         == Ok(Event(mode, PeerShell(name, NatToString(f.lastPorts.rpc + 1), command)))
  {
    var g := Create(f, root, name).value;
    var p := Persist(g).services;
    assert Unique(g.services) && Lookup(g.services, name) == Some(Build(root, name, g.lastPorts));
    PersistKeeps(g);
    assert Lookup(p, name) == Some(Build(root, name, g.lastPorts));
    assert g.lastPorts.rpc == f.lastPorts.rpc + 1;
    PeerPortRoundTrip(p, root, name, g.lastPorts, command, mode);
  }

  /** A fresh fleet: the backend entry alone, with the allocator at `seed`. */
  function Fresh(backend: Service, seed: PortTriple): Fleet
  {
    Fleet([Entry(BackendName, backend)], seed)
  }

  /** The fleet after `create alice` and `create bob` on a fresh fleet, as
      the next invocation loads it: sorted by key. */
  function AliceAndBob(root: string, backend: Service, seed: PortTriple): Fleet
  {
    Fleet([ Entry("alice", Build(root, "alice", Advance(seed))),
            Entry(BackendName, backend),
            Entry("bob", Build(root, "bob", Advance(Advance(seed)))) ],
          Advance(Advance(seed)))
  }

  /** The three keys in Python's string order. */
  lemma KeyOrder()
    ensures Less("alice", BackendName) && Less(BackendName, "bob") && Less("alice", "bob")
    ensures !Less(BackendName, "alice") && !Less("bob", BackendName) && !Less("bob", "alice")
  {
    assert Less("itcoin", "ob");
    assert Less(BackendName, "bob");
    LessAsymmetric("alice", BackendName);
    LessAsymmetric(BackendName, "bob");
    LessAsymmetric("alice", "bob");
  }

  /** The first invocation, `create alice`: the stored fleet holds `alice`
      ahead of the backend. */
  lemma CreateAlice(root: string, backend: Service, seed: PortTriple)
    ensures Create(Fresh(backend, seed), root, "alice").Ok?
    ensures Persist(Create(Fresh(backend, seed), root, "alice").value)
         == Fleet([Entry("alice", Build(root, "alice", Advance(seed))), Entry(BackendName, backend)], Advance(seed))
  {
    KeyOrder();
    var b := Entry(BackendName, backend);
    var ea := Entry("alice", Build(root, "alice", Advance(seed)));
    var f0 := Fresh(backend, seed);
    assert !Contains(f0.services, "alice");
    CreateAppends(f0, root, "alice");
    SortSwapsPair(b, ea);
  }

  /** The second invocation, `create bob`, on what the first one stored:
      `bob` sorts after both keys already there, so the dump keeps the
      appended order. */
  lemma CreateBob(root: string, backend: Service, seed: PortTriple)
    ensures var f1 := Fleet([Entry("alice", Build(root, "alice", Advance(seed))), Entry(BackendName, backend)], Advance(seed));
      && Create(f1, root, "bob").Ok?
      && Persist(Create(f1, root, "bob").value) == AliceAndBob(root, backend, seed)
  {
    KeyOrder();
    var b := Entry(BackendName, backend);
    var ea := Entry("alice", Build(root, "alice", Advance(seed)));
    var eb := Entry("bob", Build(root, "bob", Advance(Advance(seed))));
    var f1 := Fleet([ea, b], Advance(seed));
    assert Names(f1.services) == ["alice", BackendName];
    CreateAppends(f1, root, "bob");
    assert f1.services + [eb] == [ea, b, eb];
    SortedThree(ea, b, eb);
    SortSorted([ea, b, eb]);
  }

  /** Creating `alice` then `bob` on a fresh fleet succeeds and stores
      exactly `AliceAndBob`: `listnodes` then prints the keys in sorted
      order, not in creation order, and `bob` gets the ports one above
      `alice`'s on every component. */
  lemma TwoPeers(root: string, backend: Service, seed: PortTriple)
    ensures CreateAll(Fresh(backend, seed), root, ["alice", "bob"]) == Ok(AliceAndBob(root, backend, seed))
    ensures ListNodes(AliceAndBob(root, backend, seed)) == ["alice", "bitcoin", "bob"]
  {
    CreateAlice(root, backend, seed);
    CreateBob(root, backend, seed);
    CreatePair(Fresh(backend, seed), root, "alice", "bob");
    AliceAndBobNames(root, backend, seed);
  }

  /** Two creates in a row, each on what the previous invocation stored. */
  lemma CreatePair(f: Fleet, root: string, a: string, b: string)
    requires Create(f, root, a).Ok?
    requires Create(Persist(Create(f, root, a).value), root, b).Ok?
    ensures CreateAll(f, root, [a, b]) == Ok(Persist(Create(Persist(Create(f, root, a).value), root, b).value))
  {
    var p1 := Persist(Create(f, root, a).value);
    var p2 := Persist(Create(p1, root, b).value);
    CreateAllStep(f, root, [a, b]);
    assert [a, b][1..] == [b];
    CreateAllStep(p1, root, [b]);
    assert [b][1..] == [];
  }

  lemma AliceAndBobNames(root: string, backend: Service, seed: PortTriple)
    ensures ListNodes(AliceAndBob(root, backend, seed)) == ["alice", "bitcoin", "bob"]
  {
  }

  /** Where each node of `AliceAndBob` is found. */
  lemma AliceAndBobLookup(root: string, backend: Service, seed: PortTriple)
    ensures var reg := AliceAndBob(root, backend, seed).services;
      && Contains(reg, BackendName)
      && Lookup(reg, "alice") == Some(Build(root, "alice", Advance(seed)))
      && Lookup(reg, "bob") == Some(Build(root, "bob", Advance(Advance(seed))))
  {
    var reg := AliceAndBob(root, backend, seed).services;
    assert reg[0].name == "alice" && reg[1].name == BackendName && reg[2].name == "bob";
    assert IndexOf(reg, "alice") == 0;
    assert IndexOf(reg, "bob") == 2;
  }

  /** `connect` between two peers whose definitions are the ones `create`
      wrote: a captured `getinfo` on the target's control port, then an
      interactive `connect` to its first URI on the source's control port. */
  lemma ConnectPeers(reg: Services, root: string, from: string, pf: PortTriple, to: string, pt: PortTriple,
                     respond: Responder, uri: string, more: seq<string>, key: Option<string>)
    requires from != BackendName && to != BackendName
    requires Lookup(reg, from) == Some(Build(root, from, pf))
    requires Lookup(reg, to) == Some(Build(root, to, pt))
    requires respond(PeerShell(to, NatToString(pt.rpc), "getinfo")) == Some(Info(Some([uri] + more), key))
    ensures Connect(reg, from, to, respond)
         == Run([ Event(Captured, PeerShell(to, NatToString(pt.rpc), "getinfo")),
                  Event(Interactive, PeerShell(from, NatToString(pf.rpc), "connect " + uri)) ], None)
  {
    var info := Info(Some([uri] + more), key);
    PeerPortRoundTrip(reg, root, to, pt, "getinfo", Captured);
    PeerPortRoundTrip(reg, root, from, pf, "connect " + uri, Interactive);
    ConnectSucceeds(reg, from, to, respond, Event(Captured, PeerShell(to, NatToString(pt.rpc), "getinfo")), info,
                    Event(Interactive, PeerShell(from, NatToString(pf.rpc), "connect " + uri)));
  }

  /** `openchannel` between two peers whose definitions are the ones `create`
      wrote, on a registry that holds the backend. */
  lemma OpenChannelPeers(reg: Services, root: string, from: string, pf: PortTriple, to: string, pt: PortTriple,
                         respond: Responder, uris: Option<seq<string>>, key: string, amount: int)
    requires from != BackendName && to != BackendName
    requires Contains(reg, BackendName)
    requires Lookup(reg, from) == Some(Build(root, from, pf))
    requires Lookup(reg, to) == Some(Build(root, to, pt))
    requires respond(PeerShell(to, NatToString(pt.rpc), "getinfo")) == Some(Info(uris, Some(key)))
    ensures OpenChannel(reg, from, to, amount, respond)
         == Run([ Event(Captured, PeerShell(to, NatToString(pt.rpc), "getinfo")),
                  Event(Interactive, PeerShell(from, NatToString(pf.rpc), "openchannel " + key + " " + IntToString(amount))),
                  Event(Interactive, BackendShell + ConfirmBlocks) ],
                None)
  {
    var command := "openchannel " + key + " " + IntToString(amount);
    PeerPortRoundTrip(reg, root, to, pt, "getinfo", Captured);
    PeerPortRoundTrip(reg, root, from, pf, command, Interactive);
    DispatchBackend(reg, ConfirmBlocks, Interactive);
    OpenChannelSucceeds(reg, from, to, amount, respond, Event(Captured, PeerShell(to, NatToString(pt.rpc), "getinfo")),
                        Info(uris, Some(key)), Event(Interactive, PeerShell(from, NatToString(pf.rpc), command)),
                        Event(Interactive, BackendShell + ConfirmBlocks));
  }

  /** `connect alice bob` after the two creates: `getinfo` on `bob`'s
      control port, then `connect` on `alice`'s. */
  lemma ConnectAliceBob(root: string, backend: Service, seed: PortTriple,
                        respond: Responder, uri: string, more: seq<string>, key: Option<string>)
    requires respond(PeerShell("bob", NatToString(seed.rpc + 2), "getinfo")) == Some(Info(Some([uri] + more), key))
    ensures Connect(AliceAndBob(root, backend, seed).services, "alice", "bob", respond)
         == Run([ Event(Captured, PeerShell("bob", NatToString(seed.rpc + 2), "getinfo")),
                  Event(Interactive, PeerShell("alice", NatToString(seed.rpc + 1), "connect " + uri)) ], None)
  {
    var pa := Advance(seed);
    var pb := Advance(pa);
    assert pa.rpc == seed.rpc + 1 && pb.rpc == seed.rpc + 2;
    AliceAndBobLookup(root, backend, seed);
    ConnectPeers(AliceAndBob(root, backend, seed).services, root, "alice", pa, "bob", pb, respond, uri, more, key);
  }

  /** `openchannel alice bob amount` after the two creates: the exact three
      shell commands. */
  lemma OpenChannelAliceBob(root: string, backend: Service, seed: PortTriple,
                            respond: Responder, uris: Option<seq<string>>, key: string, amount: int)
    requires respond(PeerShell("bob", NatToString(seed.rpc + 2), "getinfo")) == Some(Info(uris, Some(key)))
    ensures OpenChannel(AliceAndBob(root, backend, seed).services, "alice", "bob", amount, respond)
         == Run([ Event(Captured, PeerShell("bob", NatToString(seed.rpc + 2), "getinfo")),
                  Event(Interactive, PeerShell("alice", NatToString(seed.rpc + 1),
                                               "openchannel " + key + " " + IntToString(amount))),
                  Event(Interactive, BackendShell + ConfirmBlocks) ],
                None)
  {
    var pa := Advance(seed);
    var pb := Advance(pa);
    assert pa.rpc == seed.rpc + 1 && pb.rpc == seed.rpc + 2;
    AliceAndBobLookup(root, backend, seed);
    OpenChannelPeers(AliceAndBob(root, backend, seed).services, root, "alice", pa, "bob", pb, respond, uris, key, amount);
  }
}

=== FILE: text.dfy ===
/** String helpers the tool relies on from its host language: splitting at a
    separator, joining with a separator, and decimal rendering of integers. */
module Text {

  /** Joins `words` with `sep` between consecutive words; the empty list joins
      to the empty string. */
  function Join(words: seq<string>, sep: char): string
  {
    if |words| == 0 then ""
    else if |words| == 1 then words[0]
    else words[0] + [sep] + Join(words[1..], sep)
  }

  predicate EndsWith(s: string, suffix: string)
  {
    |suffix| <= |s| && s[|s| - |suffix|..] == suffix
  }

  /** `a + (b + c)` starts with `a` and ends with `c`. */
  lemma EndsWithAfter(a: string, b: string, c: string)
    ensures a <= a + (b + c)
    ensures EndsWith(a + (b + c), c)
  {
    assert a + (b + c) == (a + b) + c;
    assert ((a + b) + c)[|a + b|..] == c;
  }

  /** Splits `s` at every occurrence of `sep`, keeping empty pieces, as a
      string split with an explicit one-character separator does. The pieces
      never contain `sep` and joining them with `sep` gives `s` back. */
  function Split(s: string, sep: char): (pieces: seq<string>)
    ensures |pieces| >= 1
    ensures forall i :: 0 <= i < |pieces| ==> sep !in pieces[i]
    ensures Join(pieces, sep) == s
    decreases |s|
  {
    if |s| == 0 then [""]
    else
      var rest := Split(s[1..], sep);
      if s[0] == sep then
        assert ([""] + rest)[1..] == rest;
        assert s == [sep] + s[1..];
        [""] + rest
      else
        var first := [s[0]] + rest[0];
        assert s == [s[0]] + s[1..];
        assert |rest| >= 2 ==> ([first] + rest[1..])[1..] == rest[1..];
        [first] + rest[1..]
  }

  /** The part of `s` before the first `sep`, or all of `s` when there is none. */
  function FirstField(s: string, sep: char): (field: string)
    ensures sep !in field
    ensures field <= s
    ensures field == s || (|field| < |s| && s[|field|] == sep)
  {
    var pieces := Split(s, sep);
    JoinStartsWithFirst(pieces, sep);
    SplitFirstStops(s, sep);
    pieces[0]
  }

  /** The first piece runs up to the first separator, or to the end. */
  lemma {:induction false} SplitFirstStops(s: string, sep: char)
    ensures var first := Split(s, sep)[0];
      first == s || (|first| < |s| && s[|first|] == sep)
    decreases |s|
  {
    if |s| > 0 && s[0] != sep {
      SplitFirstStops(s[1..], sep);
      var rest := Split(s[1..], sep);
      assert Split(s, sep)[0] == [s[0]] + rest[0];
      if rest[0] == s[1..] {
        assert [s[0]] + s[1..] == s;
      }
    }
  }

  lemma JoinStartsWithFirst(words: seq<string>, sep: char)
    requires |words| >= 1
    ensures words[0] <= Join(words, sep)
  {
  }

  /** A string free of the separator is a single piece. */
  lemma {:induction false} SplitWithoutSep(a: string, sep: char)
    requires sep !in a
    ensures Split(a, sep) == [a]
    decreases |a|
  {
    if |a| > 0 {
      SplitWithoutSep(a[1..], sep);
      assert [a[0]] + a[1..] == a;
    }
  }

  /** A separator-free prefix followed by the separator splits off as the
      first piece. */
  lemma {:induction false} SplitAfterField(a: string, sep: char, b: string)
    requires sep !in a
    ensures Split(a + [sep] + b, sep) == [a] + Split(b, sep)
    decreases |a|
  {
    var s := a + [sep] + b;
    if |a| == 0 {
      assert s[0] == sep && s[1..] == b;
    } else {
      assert s[0] == a[0] && s[1..] == a[1..] + [sep] + b;
      SplitAfterField(a[1..], sep, b);
      assert [a[0]] + a[1..] == a;
    }
  }

  /** Splitting undoes joining, provided no word contains the separator. */
  lemma {:induction false} SplitJoin(words: seq<string>, sep: char)
    requires |words| >= 1
    requires forall i :: 0 <= i < |words| ==> sep !in words[i]
    ensures Split(Join(words, sep), sep) == words
    decreases |words|
  {
    if |words| == 1 {
      SplitWithoutSep(words[0], sep);
    } else {
      SplitJoin(words[1..], sep);
      SplitAfterField(words[0], sep, Join(words[1..], sep));
      assert [words[0]] + words[1..] == words;
    }
  }

  /** The first field of `a + [sep] + b` is `a` when `a` has no separator:
      the shape of a `"host:container"` port mapping read back. */
  lemma FirstFieldOfPair(a: string, sep: char, b: string)
    requires sep !in a
    ensures FirstField(a + [sep] + b, sep) == a
  {
    SplitAfterField(a, sep, b);
  }

  predicate IsDigit(c: char)
  {
    '0' <= c <= '9'
  }

  function DigitChar(d: nat): (c: char)
    requires d < 10
    ensures IsDigit(c)
  {
    ('0' as int + d) as char
  }

  function DigitValue(c: char): (d: nat)
    requires IsDigit(c)
    ensures d < 10
  {
    c as int - '0' as int
  }

  /** Decimal rendering of a natural number, most significant digit first,
      without leading zeros. */
  function NatToString(n: nat): (s: string)
    ensures |s| >= 1
    ensures forall i :: 0 <= i < |s| ==> IsDigit(s[i])
    ensures s[0] == '0' ==> n == 0 && s == "0"
    decreases n
  {
    if n < 10 then [DigitChar(n)]
    else NatToString(n / 10) + [DigitChar(n % 10)]
  }

  /** Reads a string of decimal digits back as a number. */
  function ParseNat(s: string): nat
    requires forall i :: 0 <= i < |s| ==> IsDigit(s[i])
    decreases |s|
  {
    if |s| == 0 then 0
    else 10 * ParseNat(s[..|s| - 1]) + DigitValue(s[|s| - 1])
  }

  /** Decimal rendering round-trips through parsing. */
  lemma {:induction false} ParseNatToString(n: nat)
    ensures ParseNat(NatToString(n)) == n
    decreases n
  {
    var s := NatToString(n);
    if n >= 10 {
      ParseNatToString(n / 10);
      assert s[..|s| - 1] == NatToString(n / 10);
    }
  }

  /** Distinct numbers render to distinct strings. */
  lemma NatToStringInjective(m: nat, n: nat)
    requires NatToString(m) == NatToString(n)
    ensures m == n
  {
    ParseNatToString(m);
    ParseNatToString(n);
  }

  /** A rendered number contains neither a colon nor a space, so it is always
      one whole field of a `':'`- or `' '`-separated string. */
  lemma NatToStringHasNoSeparator(n: nat)
    ensures ':' !in NatToString(n)
    ensures ' ' !in NatToString(n)
  {
    var s := NatToString(n);
    assert forall i :: 0 <= i < |s| ==> s[i] != ':' && s[i] != ' ' by {
      forall i | 0 <= i < |s| ensures s[i] != ':' && s[i] != ' ' {
        assert IsDigit(s[i]);
      }
    }
  }

  /** Decimal rendering of an integer, with a leading minus sign when it is
      negative. */
  function IntToString(i: int): (s: string)
    ensures |s| >= 1
    ensures s[0] == '-' <==> i < 0
    ensures ' ' !in s
    ensures i >= 0 ==> (forall k :: 0 <= k < |s| ==> IsDigit(s[k])) && ParseNat(s) == i
    ensures i < 0 ==> (forall k :: 1 <= k < |s| ==> IsDigit(s[k])) && ParseNat(s[1..]) == -i
    ensures i >= 0 && s[0] == '0' ==> s == "0"
    ensures i < 0 ==> |s| >= 2 && s[1] != '0'
  {
    NatToStringHasNoSeparator(if i < 0 then -i else i);
    ParseNatToString(if i < 0 then -i else i);
    if i < 0 then
      var digits := NatToString(-i);
      assert ("-" + digits)[1..] == digits;
      "-" + digits
    else NatToString(i)
  }

  /** Python's ordering of strings: character by character on code points,
      with a proper prefix before every longer string it starts. */
  predicate Less(a: string, b: string)
    decreases |a|
  {
    |b| > 0 && (|a| == 0 || a[0] < b[0] || (a[0] == b[0] && Less(a[1..], b[1..])))
  }

  lemma {:induction false} LessIrreflexive(a: string)
    ensures !Less(a, a)
    decreases |a|
  {
    if |a| > 0 {
      LessIrreflexive(a[1..]);
    }
  }

  lemma {:induction false} LessTransitive(a: string, b: string, c: string)
    requires Less(a, b) && Less(b, c)
    ensures Less(a, c)
    decreases |a|
  {
    if |a| > 0 && a[0] == b[0] && b[0] == c[0] {
      LessTransitive(a[1..], b[1..], c[1..]);
    }
  }

  /** Any two distinct strings are ordered one way or the other. */
  lemma {:induction false} LessTotal(a: string, b: string)
    ensures a == b || Less(a, b) || Less(b, a)
    decreases |a|
  {
    if |a| > 0 && |b| > 0 && a[0] == b[0] {
      LessTotal(a[1..], b[1..]);
      if a[1..] == b[1..] {
        assert a == [a[0]] + a[1..] && b == [b[0]] + b[1..];
      }
    }
  }

  lemma LessAsymmetric(a: string, b: string)
    requires Less(a, b)
    ensures !Less(b, a) && a != b
  {
    LessIrreflexive(a);
    if Less(b, a) {
      LessTransitive(a, b, a);
    }
  }
}

=== FILE: topology.dfy ===
/** The topology commands of torch-cli.py (`connect`, `openchannel`,
    `mining`): fixed sequences of router calls, recorded as the trace of
    shell commands they issue. */
module Topology {
  import opened Basics
  import opened Text
  import opened Definition
  import opened Registry
  import opened Commands
  import opened Router

  /** The two keys of a node's `getinfo` answer that the tool reads, each
      `None` when the answer lacks it: `connect` reads only `uris` and
      `openchannel` only `identity_pubkey`. */
  datatype Info = Info(uris: Option<seq<string>>, identityPubkey: Option<string>)

  /** What parsing the captured output of a shell command yields: `None`
      when it is not a JSON object. The process and the JSON parser are
      outside the model. */
  type Responder = string -> Option<Info>

  /** The shell commands issued, in order, and the error that ended the
      command line early, if any. Steps already issued stay issued. */
  datatype Run = Run(trace: seq<Event>, failure: Option<Error>)

  /** The raw backend command `openchannel` ends with, confirming the funding
      transaction. */
  const ConfirmBlocks: string := "-generate 3"

  /** `connect from to`: ask `to` for its URIs, then have `from` connect to the
      first one. */
  function Connect(reg: Services, from: string, to: string, respond: Responder): (r: Run)
    ensures |r.trace| <= 2
    ensures r.failure.None? <==> |r.trace| == 2
    ensures !Contains(reg, to) ==> r == Run([], Some(NodeNotFound))
    ensures var probe := Dispatch(reg, to, "getinfo", Captured);
      && (probe.Err? ==> r == Run([], Some(probe.error)))
      && (probe.Ok? ==> |r.trace| >= 1 && r.trace[0] == probe.value)
    ensures |r.trace| >= 1 && respond(r.trace[0].shell).None? ==>
      |r.trace| == 1 && r.failure == Some(MalformedResponse)
    ensures |r.trace| >= 1 && respond(r.trace[0].shell).Some? ==>
      var uris := respond(r.trace[0].shell).value.uris;
      && (uris.None? ==> |r.trace| == 1 && r.failure == Some(MissingKey))
      && (uris == Some([]) ==> |r.trace| == 1 && r.failure == Some(NoUri))
    ensures |r.trace| >= 1 && respond(r.trace[0].shell).Some? ==>
      var uris := respond(r.trace[0].shell).value.uris;
      uris.Some? && |uris.value| > 0 ==>
        var step := Dispatch(reg, from, "connect " + uris.value[0], Interactive);
        && (step.Err? ==> |r.trace| == 1 && r.failure == Some(step.error))
        && (step.Ok? ==> r.trace == [r.trace[0], step.value])
  {
    match Dispatch(reg, to, "getinfo", Captured)
    case Err(e) => Run([], Some(e))
    case Ok(probe) =>
      match respond(probe.shell)
      case None => Run([probe], Some(MalformedResponse))
      case Some(info) =>
        match info.uris
        case None => Run([probe], Some(MissingKey))
        case Some(uris) =>
          if |uris| == 0 then Run([probe], Some(NoUri))
          else
            match Dispatch(reg, from, "connect " + uris[0], Interactive)
            case Err(e) => Run([probe], Some(e))
            case Ok(link) => Run([probe, link], None)
  }

  /** `openchannel from to amount`: ask `to` for its public key, have `from`
      open a channel of `amount` to it, then mine three blocks on the backend
      whatever the channel command printed. */
  function OpenChannel(reg: Services, from: string, to: string, amount: int, respond: Responder): (r: Run)
    ensures |r.trace| <= 3
    ensures r.failure.None? <==> |r.trace| == 3
    ensures !Contains(reg, to) ==> r == Run([], Some(NodeNotFound))
    ensures var probe := Dispatch(reg, to, "getinfo", Captured);
      && (probe.Err? ==> r == Run([], Some(probe.error)))
      && (probe.Ok? ==> |r.trace| >= 1 && r.trace[0] == probe.value)
    ensures |r.trace| >= 1 && respond(r.trace[0].shell).None? ==>
      |r.trace| == 1 && r.failure == Some(MalformedResponse)
    ensures |r.trace| >= 1 && respond(r.trace[0].shell).Some? ==>
      var key := respond(r.trace[0].shell).value.identityPubkey;
      && (key.None? ==> |r.trace| == 1 && r.failure == Some(MissingKey))
      && (key.Some? ==>
            var step := Dispatch(reg, from, "openchannel " + key.value + " " + IntToString(amount), Interactive);
            && (step.Err? ==> |r.trace| == 1 && r.failure == Some(step.error))
            && (step.Ok? ==> |r.trace| >= 2 && r.trace[1] == step.value))
  {
    match Dispatch(reg, to, "getinfo", Captured)
    case Err(e) => Run([], Some(e))
    case Ok(probe) =>
      match respond(probe.shell)
      case None => Run([probe], Some(MalformedResponse))
      case Some(info) =>
        match info.identityPubkey
        case None => Run([probe], Some(MissingKey))
        case Some(key) => Fund(reg, from, key, amount, probe)
  }

  /** The part of `openchannel` after the target's key is known: the channel
      command on `from`, then the confirmation blocks on the backend. */
  function Fund(reg: Services, from: string, key: string, amount: int, probe: Event): (r: Run)
    ensures 1 <= |r.trace| <= 3 && r.trace[0] == probe
    ensures r.failure.None? <==> |r.trace| == 3
    ensures var step := Dispatch(reg, from, "openchannel " + key + " " + IntToString(amount), Interactive);
      && (step.Err? ==> r == Run([probe], Some(step.error)))
      && (step.Ok? ==> |r.trace| >= 2 && r.trace[1] == step.value)
    ensures |r.trace| == 3 ==> r.trace[2] == Event(Interactive, BackendShell + ConfirmBlocks)
    ensures |r.trace| == 2 ==> r.failure == Some(NodeNotFound) && !Contains(reg, BackendName)
  {
    DispatchBackend(reg, ConfirmBlocks, Interactive);
    match Dispatch(reg, from, "openchannel " + key + " " + IntToString(amount), Interactive)
    case Err(e) => Run([probe], Some(e))
    case Ok(channel) =>
      match Dispatch(reg, BackendName, ConfirmBlocks, Interactive)
      case Err(e) => Run([probe, channel], Some(e))
      case Ok(mined) => Run([probe, channel, mined], None)
  }

  /** Once the channel command has been issued, the three confirmation
      blocks are always requested from the backend; the only way that last
      step fails is a registry without the backend. */
  lemma OpenChannelConfirms(reg: Services, from: string, to: string, amount: int, respond: Responder)
    ensures var r := OpenChannel(reg, from, to, amount, respond);
      |r.trace| >= 2 ==>
        && (|r.trace| == 3 <==> Contains(reg, BackendName))
        && (|r.trace| == 2 ==> r.failure == Some(NodeNotFound))
        && (|r.trace| == 3 ==>
              r.trace[2] == Event(Interactive, BackendShell + ConfirmBlocks))
  {
    DispatchBackend(reg, ConfirmBlocks, Interactive);
  }

  /** When every router call succeeds and `getinfo` parses with a URI,
      `connect` issues exactly the probe and the connect command. */
  lemma ConnectSucceeds(reg: Services, from: string, to: string, respond: Responder,
                        probe: Event, info: Info, link: Event)
    requires Dispatch(reg, to, "getinfo", Captured) == Ok(probe)
    requires respond(probe.shell) == Some(info) && info.uris.Some? && |info.uris.value| > 0
    requires Dispatch(reg, from, "connect " + info.uris.value[0], Interactive) == Ok(link)
    ensures Connect(reg, from, to, respond) == Run([probe, link], None)
  {
  }

  /** When every router call succeeds and `getinfo` parses, `openchannel`
      issues exactly the probe, the channel command and the confirmation. */
  lemma OpenChannelSucceeds(reg: Services, from: string, to: string, amount: int, respond: Responder,
                            probe: Event, info: Info, channel: Event, mined: Event)
    requires Dispatch(reg, to, "getinfo", Captured) == Ok(probe)
    requires respond(probe.shell) == Some(info) && info.identityPubkey.Some?
    requires Dispatch(reg, from, "openchannel " + info.identityPubkey.value + " " + IntToString(amount), Interactive)
          == Ok(channel)
    requires Dispatch(reg, BackendName, ConfirmBlocks, Interactive) == Ok(mined)
    ensures OpenChannel(reg, from, to, amount, respond) == Run([probe, channel, mined], None)
  {
  }

  /** `mining nblock`: one interactive `-generate nblock` on the backend. */
  function Mining(reg: Services, nblock: string): (r: Run)
    ensures Contains(reg, BackendName) ==>
      r == Run([Event(Interactive, BackendShell + "-generate " + nblock)], None)
    ensures !Contains(reg, BackendName) ==> r == Run([], Some(NodeNotFound))
  {
    var step := Dispatch(reg, BackendName, "-generate " + nblock, Interactive);
    DispatchBackend(reg, "-generate " + nblock, Interactive);
    assert BackendShell + ("-generate " + nblock) == BackendShell + "-generate " + nblock;
    match step
    case Err(e) => Run([], Some(e))
    case Ok(ev) => Run([ev], None)
  }
}
